=== FILE: README.md ===
# udn_nba scrape pipeline, modelled in Dafny

This project models the core of `udn_nba`, a Django service that scrapes the
NBA section of a news site. It covers these steps:

- The **homepage scraper** lists the carousel's featured article URLs. It skips
  the carousel's clone slides and any URL already stored.
- The **article scraper** reads an article's title, thumbnail, author byline
  and body paragraphs.
- The **resolvers** match tags against the title and get or create the author
  by name.
- Two **background tasks** open a scrape session, dispatch one job per URL,
  and try to turn each job into a stored article. As written, only articles
  without a named author are ever stored (see "## Findings").
- Two **query validators and filters** serve the session list (year, month,
  day) and the tag list (name, type).
- The **tag table** has its `(name, type)` uniqueness rule and its field
  checks. The **`load_tags` command** loads a fixture into it with get-or-create.

Everything is a pure function over immutable values:

- **Pages.** A page is the raw text the fetch returned together with the nodes
  the CSS selectors would pick out of it. A failed fetch is `None`.
- **Tables.** Tables are sequences or maps with their id sequence.
- **Transitions.** A task returns the new database value. Dispatching a job
  appends it to a returned list.
- **Python semantics.** `str.strip` and `str.isspace` are modelled with
  Python's whitespace set. `in` on strings is a substring test, and
  `"\n".join` is modelled as well. The regex `記者(.*?)／` is modelled exactly:
  the leftmost match, `.` not matching a newline, and a lazy group that ends
  at the first `／`.

Modules, one per source file:

- `Wrappers`: `Option` and `Result`.
- `Text`: the string builtins.
- `TagModels`: `tags/models.py`.
- `NewsModels`: the record shapes of `news/models.py`.
- `Scrapers`: `news/scrape/scrapers.py`.
- `Parsers`: `news/scrape/parsers.py`.
- `Tasks`: `news/tasks.py`.
- `SessionFilter`: `news/views.py`.
- `TagViews`: `tags/views.py`.
- `LoadTags`: `tags/management/commands/load_tags.py`.
- `WorkedCases`: concrete inputs from the test suite.

### Where the tests and the code disagree (the model follows the code)

- **Deduplication.** The scraper tests call a `check_if_news_exists(title, url)`.
  The code deduplicates on the URL alone (`UdnNbaHomeScraper.check_if_news_exists`).
  `Scrapers.CheckIfNewsExists` looks at the URL only.
- **Content selector.** The code reads paragraphs through
  `#story_body_content > span > p`. The test fixture puts the `<p>` elements
  directly under the `div`, so they would not be selected. In the model, a
  page's paragraphs are the ones that selector picks out.
- **Parser errors.** The parser tests expect errors in `title_parser` and
  `author_parser` to be caught and logged. The code has no `try`/`except`
  and no logger. In the model, `author_parser` on a name shared by several
  authors is a `Failure` that propagates to `process_news_article`:
  `Tasks.StoreArticle` then stores nothing.
- **Stored authors.** `process_news_article` passes the id `author_parser`
  returns as `author=` to `News.objects.create`. Django's foreign-key
  descriptor accepts only an `Author` instance or None there and raises
  `ValueError` otherwise. The task pipeline (`Tasks.StoreArticle` and
  everything built on it) follows the code as written. The evidently
  intended behaviour is `Tasks.StoreArticleIntended`.

## Model

| member | source | states |
|---|---|---|
| Text.Strip | udn_nba/news/scrape/scrapers.py:203-204 | `strip()` cuts a whitespace-only prefix and suffix off `s` and leaves a result with whitespace at neither end. The result is empty exactly when `s` is all whitespace. |
| Text.StripUnique | udn_nba/news/scrape/scrapers.py:236-238 | Any trimmed core of `s` with a whitespace-only prefix and suffix is `Strip(s)`: strip is fully determined by that description. |
| Text.StripIdempotent | udn_nba/news/scrape/scrapers.py:203-204 | Stripping twice gives the same as stripping once. |
| Text.StripTrimmed | udn_nba/news/scrape/scrapers.py:221 | A string with no surrounding whitespace is its own strip. |
| Text.Contains | udn_nba/news/scrape/parsers.py:25 | Python's `needle in hay` holds exactly when `needle` occurs in `hay` at some position. |
| Text.NotContainsChar | udn_nba/news/scrape/parsers.py:25 | A needle with a character that `hay` lacks is not a substring of it. |
| Text.JoinTrimmed | udn_nba/news/scrape/scrapers.py:240-241 | Joining non-empty, trimmed parts with a separator gives a non-empty text that starts with the first part's first character and ends with the last part's last character, so it has no surrounding whitespace. |
| Text.LowerHasNoCapital | udn_nba/tags/views.py:12 | After case folding no character is an ASCII capital letter. |
| Text.LowerIdempotent | udn_nba/tags/views.py:12 | Folding case twice gives the same as folding it once. |
| Text.IContainsIgnoresCase | udn_nba/tags/views.py:12 | Lower-casing the text or the value never changes whether the case-insensitive lookup matches. |
| TagModels.CreatedTagPrintsAsName | udn_nba/tags/models.py:12-16 | A tag created under a new `(name, type)` pair prints as the name it was created with. |
| TagModels.Create | udn_nba/tags/models.py:12-13 | An insert fails exactly when the `(name, type)` pair is already present. Otherwise it appends one row with those fields under a fresh id, keeps the table valid, and adds exactly that pair to the table's pairs. |
| TagModels.KeysCardinality | udn_nba/tags/models.py:12-13 | A table without repeated pairs has as many distinct pairs as rows. |
| TagModels.UniquePerType | udn_nba/tags/test/test_model.py:52-76 | Creating the same pair twice fails the second time. The same name under another type is accepted, giving two rows. |
| TagModels.FullClean | udn_nba/tags/models.py:4-13 | `full_clean` passes exactly when the name has 1 to 255 characters, the type is `Teams` or `Players`, and the pair is new. Each field error is reported exactly under its own condition. The duplicate-pair error is reported exactly when both fields pass their own checks and the pair already exists. |
| TagModels.CleanTagIsCreated | udn_nba/tags/models.py:9-13 | A tag that passes `full_clean` is accepted by the database, adding one row. |
| Scrapers.CheckIfNewsExistsUrlOnly | udn_nba/news/scrape/scrapers.py:146-157 | An article counts as existing exactly when some stored article has that URL. Two tables with the same stored URLs give the same answer, whatever their titles or other fields. |
| Scrapers.FeaturedUrls | udn_nba/news/scrape/scrapers.py:167-189 | A URL is listed exactly when some slide that is not a clone and has an anchor offers it (an anchor without `href` offers `""`) and no stored article has it. There are never more URLs than slides. |
| Scrapers.FeaturedAppend | udn_nba/news/scrape/scrapers.py:175-189 | The URLs of two slide lists one after the other are the URLs of the first followed by those of the second: document order is kept and repeats are not removed. |
| Scrapers.FeaturedSingle | udn_nba/news/scrape/scrapers.py:170-187 | One slide yields its anchor's URL exactly when it is not a clone (a slide with no id is not one), has an anchor, and its URL is not stored. Otherwise it yields nothing. |
| Scrapers.FeaturedNoCloneNoStored | udn_nba/news/scrape/scrapers.py:146-187 | Every listed URL is unstored and comes from a non-clone slide with an anchor. |
| Scrapers.ParseSoupGetFeaturedNews | udn_nba/news/scrape/scrapers.py:159-189 | The slide-by-slide loop computes exactly the featured URLs. |
| Scrapers.GetHomepageFeaturedNewsUrls | udn_nba/news/scrape/scrapers.py:52-76 | A failed fetch or an empty body gives `[]`. Otherwise the result is the page's featured URLs, none of them stored. |
| Scrapers.GetTitle | udn_nba/news/scrape/scrapers.py:201-206 | The result is None exactly when the element is missing or all whitespace. Otherwise it is the non-empty strip of the element's text. |
| Scrapers.GetThumbnail | udn_nba/news/scrape/scrapers.py:208-213 | The result is present exactly when the image exists and has a `src`, and it equals that `src`. |
| Scrapers.GroupEnd | udn_nba/news/scrape/scrapers.py:220 | Gives the position of the first `／` from `from`, with no newline and no other `／` before it. It is None exactly when a newline comes before every `／`. |
| Scrapers.Search | udn_nba/news/scrape/scrapers.py:220 | Gives the leftmost position where `記者(.*?)／` can match and the end of its lazy group. It is None when the pattern matches nowhere. |
| Scrapers.GetAuthor | udn_nba/news/scrape/scrapers.py:215-223 | The result is None exactly when the byline is missing or the pattern never matches. Otherwise it is the strip of the text between the leftmost matching `記者` and the first `／` after it. |
| Scrapers.CleanedParagraphs | udn_nba/news/scrape/scrapers.py:229-238 | Every kept text is non-empty and stripped, and there are never more texts than paragraphs. |
| Scrapers.CleanedMembers | udn_nba/news/scrape/scrapers.py:231-238 | A text is kept exactly when it is the strip of a paragraph that has no figure and is not blank. Nothing is kept exactly when no paragraph is of that kind. |
| Scrapers.CleanedAppend | udn_nba/news/scrape/scrapers.py:231-238 | Paragraphs are cleaned one at a time in document order. The result for a concatenation is the concatenation of the results. |
| Scrapers.CleanedSingle | udn_nba/news/scrape/scrapers.py:233-238 | A paragraph with a figure, or a blank one, contributes nothing. Any other contributes its stripped text. |
| Scrapers.GetContent | udn_nba/news/scrape/scrapers.py:225-243 | The result is None exactly when no paragraph survives. Otherwise it is the newline join of the cleaned texts, a non-empty text that is its own strip. |
| Scrapers.GetNewsDetail | udn_nba/news/scrape/scrapers.py:92-130 | A record is returned exactly when the fetch gave a non-empty body and the title, the thumbnail and the content are all non-empty. Its fields are the extractors' outputs, and the author may be None. |
| Scrapers.AuthorNeverDecides | udn_nba/news/scrape/scrapers.py:106-123 | Changing the byline never changes whether the article is accepted. |
| Parsers.TitleParser | udn_nba/news/scrape/parsers.py:22-25 | Never returns more ids than there are tags. |
| Parsers.TitleParserMembers | udn_nba/news/scrape/parsers.py:25 | An id is returned exactly when some tag with that id has a name that is a case-sensitive substring of the title. |
| Parsers.TitleParserOrdered | udn_nba/news/scrape/parsers.py:22-25 | The returned ids are a subsequence of the table's ids, so they keep table order. |
| Parsers.TitleParserNoMatch | udn_nba/news/test/test_scrape_parser.py:47-65 | A title that contains no tag name gets `[]`. |
| Parsers.NamesUniqueAtMostOne | udn_nba/news/scrape/parsers.py:39 | When names are unique, at most one author answers to a name. |
| Parsers.AuthorParser | udn_nba/news/scrape/parsers.py:29-41 | `get_or_create` fails exactly when several authors share the name. Otherwise it returns an id whose author has that name. An existing name leaves the table unchanged. A new name is added under a fresh id, and all other entries are kept. |
| Parsers.AuthorParserIdempotent | udn_nba/news/scrape/parsers.py:39 | When at most one author has that name, resolving it twice gives the same id and the second call changes nothing. Other names may be shared. |
| Parsers.AuthorParserKeepsNamesUnique | udn_nba/news/scrape/parsers.py:39 | When no name is shared, resolving a name succeeds and still no name is shared. |
| Tasks.FetchNews | udn_nba/news/tasks.py:8-28 | When the homepage yields no URL, reports "no new news" and changes nothing. Otherwise it creates exactly one new session and dispatches one job per URL, in order, all with that session's id. It changes nothing else and keeps the database valid. |
| Tasks.ResolveAuthor | udn_nba/news/tasks.py:51-55 | A missing or empty author gives no author id. Any other name gives the id `author_parser` returns, and fails when it fails. |
| Tasks.AddNews | udn_nba/news/tasks.py:58-65 | Appending an article whose foreign keys all resolve keeps the database valid. The result is exactly the old database with the article appended, the next news id advanced and the author table replaced: sessions and tags are untouched. |
| Tasks.StoreArticle | udn_nba/news/tasks.py:48-71 | The block as written. It fails with the lookup outcome exactly when the author lookup fails. It fails with the assignment outcome exactly when the detail names an author and the lookup succeeds, because the id handed to `author=` is refused. Either failure rolls back completely, including an author row just created. It stores exactly when the detail names no author, and then its result is the intended block's result: one new article with no author, the author table unchanged. The database stays valid. |
| Tasks.StoreArticleIntended | udn_nba/news/tasks.py:48-71 | The block with the `Author` itself handed to the constructor. Either rolls back completely or stores one article, keeping all previous ones. The article has a fresh id, the given URL and session, and the detail's title, content and thumbnail. Its tags are exactly the ids `title_parser` returns. Its author is absent exactly when the detail's author is missing or empty, and otherwise names that author. The author id and the author table are exactly what `author_parser` returns for the detail's author. Nothing else in the database changes: the result is the old database with the article appended, the next id advanced and that author table. It rolls back exactly when the author lookup fails. The database stays valid. |
| Tasks.NamedAuthorIsRolledBack | udn_nba/news/tasks.py:51-63 | When the detail names an author and the lookup succeeds, the block as written rolls back with the assignment outcome and leaves the database unchanged. The intended block stores the article with that author. |
| Tasks.AuthorlessAgrees | udn_nba/news/tasks.py:51-63 | When the detail names no author, the block as written and the intended block give the same result. |
| Tasks.ProcessNewsArticle | udn_nba/news/tasks.py:31-71 | An unknown session or a failed detail leaves the database unchanged with the matching outcome. Otherwise the result is `StoreArticle`'s: an article is stored exactly when the detail names no author. The database stays valid. |
| Tasks.ProcessedUrlIsDeduplicated | udn_nba/news/scrape/scrapers.py:146-187 | Once an article is stored, the homepage never lists its URL again. |
| Tasks.RunJobs | udn_nba/news/tasks.py:24-26 | Running jobs one after another keeps the database valid and keeps the sessions, the tags and every stored article. |
| Tasks.OneJob | udn_nba/news/tasks.py:31-71 | With an existing session, a page that gives a complete detail naming no author appends exactly one article, carrying the job's URL and no author. Any other page appends nothing. Sessions and authors are unchanged. |
| Tasks.RunJobsStoresAuthorlessArticles | udn_nba/news/tasks.py:31-71 | When sessions exist, one failing article does not stop the others. The new articles carry exactly the URLs of the jobs whose page gives a complete detail naming no author, one article each and in job order. Their number is the number of such pages, and the author table never changes. |
| Tasks.ScrapeCycleStoresAuthorlessArticles | udn_nba/news/tasks.py:8-71 | `fetch_news` followed by its jobs keeps every earlier article. It appends one article per featured URL whose page gives a complete detail naming no author, carrying that URL, in homepage order, and no other. The author table is unchanged. |
| SessionFilter.Validate | udn_nba/news/views.py:29-40 | A month without a year is refused first. Then a day without a year or without a month is refused, including a year and a day without a month. Anything else passes. |
| SessionFilter.FilterComponent | udn_nba/news/views.py:45-52 | Keeps only sessions whose extracted component equals the value. An absent or empty parameter keeps the list unchanged. |
| SessionFilter.FilterSessions | udn_nba/news/views.py:24-43 | Fails exactly when validation fails, with its error, and no sessions are returned then. Every returned session passes each supplied component. |
| SessionFilter.FilterComponentAsKeepAll | udn_nba/news/views.py:45-52 | Each component filter is the one-component case of the conjunctive reference filter. |
| SessionFilter.ComponentsCombineWithAnd | udn_nba/news/views.py:43-52 | The year, month and day filters applied in turn equal the reference filter that keeps, in order, the sessions passing all supplied components. |
| SessionFilter.KeepAllMembers | udn_nba/news/views.py:45-52 | A session is kept exactly when it passes every supplied component. |
| SessionFilter.KeepAllNoConstraint | udn_nba/news/views.py:43 | When every session passes, the reference filter returns the list unchanged. |
| SessionFilter.ValidQueryResult | udn_nba/news/test/test_api_session.py:108-165 | A valid query returns exactly the sessions whose year, month and day match the supplied values, in order. |
| SessionFilter.NoParametersKeepsAll | udn_nba/news/views.py:43 | Without parameters every session is returned. |
| SessionFilter.YearAndDayWithoutMonth | udn_nba/news/test/test_api_session.py:174-184 | A year and a day without a month are refused with the `day` error. |
| TagViews.Cleaned | udn_nba/tags/views.py:17-18 | A parameter's cleaned value is its strip, or `""` when it is absent. It is empty exactly when the parameter is absent or all whitespace. |
| TagViews.FilterName | udn_nba/tags/views.py:12 | Every kept tag's name contains the value case-insensitively. |
| TagViews.FilterType | udn_nba/tags/views.py:13 | Every kept tag's type equals the value. |
| TagViews.FilterTags | udn_nba/tags/views.py:15-27 | Refuses the query exactly when both cleaned values are non-empty. |
| TagViews.FilterNameMembers | udn_nba/tags/views.py:12 | A tag is kept by the name filter exactly when the value is empty or the name contains it case-insensitively. |
| TagViews.FilterTypeMembers | udn_nba/tags/views.py:13 | A tag is kept by the type filter exactly when the value is empty or equals the type. |
| TagViews.FilterNameEmpty | udn_nba/tags/views.py:12 | An empty name value keeps every tag. |
| TagViews.FilterTypeEmpty | udn_nba/tags/views.py:13 | An empty type value keeps every tag. |
| TagViews.FilterTagsMembers | udn_nba/tags/views.py:12-27 | An accepted query returns exactly the tags that pass both the name filter and the type filter. |
| TagViews.BlankQueryKeepsAll | udn_nba/tags/views.py:17-20 | Absent or whitespace-only values raise no exclusivity error and return every tag. |
| TagViews.ManchesterUnited | udn_nba/tags/test/test_api.py:62-81 | "manchester" matches "Manchester United". |
| TagViews.ManchesterCity | udn_nba/tags/test/test_api.py:62-81 | "manchester" matches "Manchester City". |
| TagViews.ManchesterNotBayern | udn_nba/tags/test/test_api.py:62-81 | "manchester" does not match "Bayern Munich". |
| TagViews.ManchesterNotRonaldo | udn_nba/tags/test/test_api.py:62-81 | "manchester" does not match "Ronaldo". |
| LoadTags.GetOrCreate | udn_nba/tags/management/commands/load_tags.py:24 | Creates a tag exactly when the pair is new. An existing pair leaves the table unchanged. Either way the returned tag has the pair, and the table's pairs gain exactly that one. |
| LoadTags.Load | udn_nba/tags/management/commands/load_tags.py:17-27 | The table stays valid. `loaded_count` equals the growth of the table, and a count of 0 means the table is unchanged. |
| LoadTags.LoadKeepsRows | udn_nba/tags/management/commands/load_tags.py:10-24 | Existing tags are never removed or altered: the old table is a prefix of the new one. |
| LoadTags.LoadKeys | udn_nba/tags/management/commands/load_tags.py:19-24 | After loading, the table's pairs are the old pairs plus the fixture's pairs. |
| LoadTags.LoadCountsNewPairs | udn_nba/tags/management/commands/load_tags.py:24-27 | `loaded_count` is the number of distinct fixture pairs not yet in the table, so a pair repeated in the fixture counts once. |
| LoadTags.LoadCoversFixture | udn_nba/tags/management/commands/load_tags.py:19-24 | After loading, every fixture pair is in the table. |
| LoadTags.Handle | udn_nba/tags/management/commands/load_tags.py:12-34 | Reports "all tags already exist" exactly when nothing was created. Otherwise it reports the positive count. |
| LoadTags.SecondRunLoadsNothing | udn_nba/tags/management/commands/load_tags.py:24-34 | A second run over the same fixture creates nothing, leaves the table unchanged and reports that all tags exist. |
| WorkedCases.BylineGivesAuthor | udn_nba/news/test/test_scrape_scraper.py:183 | The byline "記者John Doe／報導" gives the author "John Doe". |
| WorkedCases.JohnDoeIsRolledBack | udn_nba/news/tasks.py:51-63 | For the test byline "記者John Doe／報導", when at most one author is named "John Doe", the block as written rolls back and leaves the database unchanged. The intended block stores the article under an author named "John Doe". |
| WorkedCases.ContentSkipsFigureAndBlank | udn_nba/news/scrape/scrapers.py:225-243 | A paragraph, a figure, a blank paragraph and another paragraph give the two texts joined by one newline. |
| WorkedCases.FirstTwoOfThreeTags | udn_nba/news/scrape/parsers.py:25 | When the first two of three tag names occur in the title and the third does not, the result is `[1, 2]`. |
| WorkedCases.LakersTitle | udn_nba/news/test/test_scrape_parser.py:19-41 | "Lakers win NBA championship" with the tags Lakers, NBA and Playoffs gives `[1, 2]`. |
| WorkedCases.NoneOfTwoTags | udn_nba/news/scrape/parsers.py:25 | Two tags whose names do not occur in the title give `[]`. |
| WorkedCases.TitleWithoutTags | udn_nba/news/test/test_scrape_parser.py:47-65 | "Exciting game yesterday" with the tags Lakers and NBA gives `[]`. |
| WorkedCases.CleanRefusesLongNameAndBadType | udn_nba/tags/test/test_model.py:26-50 | A 256-character name is refused as too long, and the type "InvalidType" is refused as an invalid choice. |

## Findings

| source | as written | input that shows it | evidently intended | confidence | as-written member | corrected member |
|---|---|---|---|---|---|---|
| udn_nba/news/tasks.py:51-63 | `author_parser` returns `author.id` (udn_nba/news/scrape/parsers.py:41), and that int is passed as `author=` to `News.objects.create`. The `ForeignKey` descriptor raises `ValueError` for anything other than an `Author` or None, so the atomic block rolls back. | Any complete page with a non-empty byline author, e.g. "記者John Doe／報導": nothing is stored, and a newly created author is rolled back too. | Pass the `Author` object (or `author_id=`), storing the article under that author. | high; reasoned from Django's foreign-key assignment rule, not executed | Tasks.StoreArticle, with Tasks.NamedAuthorIsRolledBack and WorkedCases.JohnDoeIsRolledBack | Tasks.StoreArticleIntended |

## Left out

- Page fetching (`fetch_page`, the HTTP session, its headers and timeout) is network I/O. A fetch is an `Option` input holding the returned text.
- HTML parsing and CSS selection are done by BeautifulSoup/lxml. A page arrives as the nodes the selectors pick out: slides, anchors, the title text, the image, the byline text and the paragraphs.
- The ORM, `transaction.atomic`, celery's `.delay` and the beat schedule are not modelled. Tables are values, a transaction is "new value or old value", and dispatch appends to a returned job list. Concurrent workers are not modelled.
- Log messages, the logger module, serializers, URL routing, viewset wiring and pagination are framework plumbing that decides no result.
- The standalone example scraper and the `try_scrape` debug command duplicate the core and are not part of this model.
- `News.created_at`, `__str__` of sessions and authors, and the time zone of `created_at` are left out. A session's date is an already-decomposed (year, month, day) triple.
- Reading the fixture file in `load_tags` is not modelled. The fixture is an in-memory list of (name, type) pairs.
- Scrapers.GetNewsDetail: the catch-all `except Exception` that turns any error into `None` is not modelled, because nothing in the model raises.
- Tasks.StoreArticle: does not model the database refusing a title longer than 200 characters or an author name longer than 100. Neither length is checked by the code before the insert.
- Tasks.StoreArticle: does not model the database refusing an `original_url` or a `thumbnail_url` longer than 200 characters, the default `max_length` of a `URLField` (udn_nba/news/models.py:26-27). The scraper passes URLs through unchecked.
- TagModels.Create: does not model the database refusing a tag name longer than 255 characters, the `max_length` of `Tag.name` (udn_nba/tags/models.py:9). Whether an over-long insert is refused depends on the database backend, which is not part of this model. `full_clean` does check the length, and `TagModels.FullClean` models that.
- LoadTags.GetOrCreate: for the same reason, a fixture name longer than 255 characters is created like any other. Whether the backend refuses it is not modelled.
- Tasks.FetchNews: the new session's creation time is a parameter (`now`), because `auto_now_add` reads the clock.
- SessionFilter.FilterSessions: a non-numeric `year`, `month` or `day` makes the form invalid before this code runs. That path is not modelled. A parameter is either absent, present and empty, or present with an integer.
- TagViews.FilterTags: a `name` or `type` value containing a NUL character is refused by the form's `CharField` with a 400 response before `filter_queryset` runs. That refusal is not modelled; a value is any string.
- SessionFilter.FilterSessions: the filters are `NumberFilter`s backed by a `DecimalField`, so a value such as `year=2022.5` is accepted and matches no session. `Param` holds only integers, so that case is not expressed.
- TagViews.FilterName: `icontains` is modelled with ASCII case folding only. The database's folding of other letters is not modelled.
- Parsers.AuthorParser: the `MultipleObjectsReturned` exception is a `Failure` value, and `Tasks.StoreArticle` and `Tasks.StoreArticleIntended` roll back on it. The model does not continue through a raised exception.
- Tasks.RunJobs: the task pipeline follows `process_news_article` as written, so the intended block `Tasks.StoreArticleIntended` is not run through `RunJobs`. Its properties are stated for one article.

=== FILE: load_tags.dfy ===
/** The `load_tags` management command: a get-or-create of every fixture
    entry into the tag table, counting the tags it creates. The fixture is
    taken as an already-read list. */
module LoadTags {
  import opened TagModels

  /** The `fields` of one fixture record. */
  datatype FixtureItem = FixtureItem(name: string, tagType: string)

  /** What the command writes: the success line with the count, or the
      notice that nothing was new. */
  datatype Notice = Loaded(count: nat) | AllTagsAlreadyExist

  /** `Tag.objects.get_or_create(name=…, type=…)`: the existing tag with this
      pair and an unchanged table, or a newly created one. */
  function GetOrCreate(s: TagStore, name: string, tagType: string): (r: (Tag, bool, TagStore))
    requires s.Valid()
    ensures r.2.Valid()
    ensures r.0.name == name && r.0.tagType == tagType && r.0 in r.2.rows
    ensures r.1 <==> !HasPair(s, name, tagType)
    ensures !r.1 ==> r.2 == s
    ensures r.1 ==> r.2.rows == s.rows + [r.0] && r.2 == Create(s, name, tagType).value.1
    ensures Keys(r.2.rows) == Keys(s.rows) + {(name, tagType)}
  {
    if HasPair(s, name, tagType) then
      var t :| t in s.rows && t.name == name && t.tagType == tagType;
      assert Key(t) in Keys(s.rows);
      (t, false, s)
    else
      var (t, s') := Create(s, name, tagType).value;
      assert t == s'.rows[|s'.rows| - 1];
      (t, true, s')
  }

  /** The (name, type) pairs of the fixture. */
  function FixtureKeys(items: seq<FixtureItem>): (ks: set<(string, string)>)
    ensures forall k | k in items :: (k.name, k.tagType) in ks
  {
    if items == [] then {}
    else {(items[0].name, items[0].tagType)} + FixtureKeys(items[1..])
  }

  /** The loop of `handle`: every item in fixture order, and the number of
      items for which a tag was created. */
  function Load(s: TagStore, items: seq<FixtureItem>): (r: (nat, TagStore))
    requires s.Valid()
    ensures r.1.Valid()
    ensures r.0 == |r.1.rows| - |s.rows|
    ensures r.0 == 0 ==> r.1 == s
    decreases |items|
  {
    if items == [] then (0, s)
    else
      var (t, created, s1) := GetOrCreate(s, items[0].name, items[0].tagType);
      var (c, s2) := Load(s1, items[1..]);
      ((if created then 1 else 0) + c, s2)
  }

  /** Loading never removes or alters a tag: the old table is a prefix of
      the new one. */
  lemma {:induction false} LoadKeepsRows(s: TagStore, items: seq<FixtureItem>)
    requires s.Valid()
    ensures s.rows <= Load(s, items).1.rows
    decreases |items|
  {
    if items != [] {
      var s1 := GetOrCreate(s, items[0].name, items[0].tagType).2;
      LoadKeepsRows(s1, items[1..]);
    }
  }

  /** The pairs in the table after loading are those before it plus the
      fixture's: nothing is lost and nothing else is added. */
  lemma {:induction false} LoadKeys(s: TagStore, items: seq<FixtureItem>)
    requires s.Valid()
    ensures Keys(Load(s, items).1.rows) == Keys(s.rows) + FixtureKeys(items)
    decreases |items|
  {
    if items != [] {
      var p := (items[0].name, items[0].tagType);
      var s1 := GetOrCreate(s, p.0, p.1).2;
      LoadKeys(s1, items[1..]);
      assert Load(s, items).1 == Load(s1, items[1..]).1;
      assert Keys(s1.rows) == Keys(s.rows) + {p};
      assert FixtureKeys(items) == {p} + FixtureKeys(items[1..]);
    }
  }

  /** `handle`: the count of new tags and the message it leads to. */
  function Handle(s: TagStore, items: seq<FixtureItem>): (r: (Notice, TagStore))
    requires s.Valid()
    ensures r.1 == Load(s, items).1
    ensures r.0 == AllTagsAlreadyExist <==> Load(s, items).0 == 0
    ensures r.0.Loaded? ==> r.0.count == Load(s, items).0 > 0
  {
    var (count, s') := Load(s, items);
    if count > 0 then (Loaded(count), s') else (AllTagsAlreadyExist, s')
  }

  /** The count is the number of fixture pairs that were not yet in the
      table: a pair repeated in the fixture is created, and counted, once. */
  lemma LoadCountsNewPairs(s: TagStore, items: seq<FixtureItem>)
    requires s.Valid()
    ensures Load(s, items).0 == |FixtureKeys(items) - Keys(s.rows)|
  {
    var s' := Load(s, items).1;
    LoadKeys(s, items);
    KeysCardinality(s.rows);
    KeysCardinality(s'.rows);
    var oldKeys := Keys(s.rows);
    var added := FixtureKeys(items) - oldKeys;
    assert Keys(s'.rows) == oldKeys + added;
    assert oldKeys !! added;
  }

  /** After loading, every fixture pair is in the table. */
  lemma LoadCoversFixture(s: TagStore, items: seq<FixtureItem>)
    requires s.Valid()
    ensures forall k | k in items :: HasPair(Load(s, items).1, k.name, k.tagType)
  {
    var s' := Load(s, items).1;
    LoadKeys(s, items);
    forall k | k in items ensures HasPair(s', k.name, k.tagType) {
      assert (k.name, k.tagType) in Keys(s'.rows);
      var t :| t in s'.rows && Key(t) == (k.name, k.tagType);
    }
  }

  /** Running the command a second time over the same fixture creates
      nothing, leaves the table as it is and reports that all tags exist. */
  lemma SecondRunLoadsNothing(s: TagStore, items: seq<FixtureItem>)
    requires s.Valid()
    ensures var s1 := Handle(s, items).1;
      Handle(s1, items) == (AllTagsAlreadyExist, s1)
  {
    var s1 := Load(s, items).1;
    LoadKeys(s, items);
    LoadCountsNewPairs(s1, items);
    assert FixtureKeys(items) - Keys(s1.rows) == {};
  }
}

=== FILE: news_models.dfy ===
/** The record shapes of the news app: authors, scrape sessions and news
    articles, with the tables they live in. */
module NewsModels {
  import opened Wrappers

  /** A calendar date, already taken apart into its components (the
      timestamp's time of day and time zone play no part here). */
  datatype Date = Date(year: int, month: int, day: int)

  /** One scrape run; every article it produced points at it. */
  datatype NewsSession = NewsSession(id: nat, createdAt: Date)

  /** One stored article. `author` is the author's id, or None;
      `tags` is the set of tag ids of the many-to-many relation. */
  datatype News = News(
    id: nat,
    title: string,
    content: string,
    originalUrl: string,
    thumbnailUrl: string,
    author: Option<nat>,
    session: nat,
    tags: set<nat>)

  /** The author table: id to name, and the next value of the id sequence.
      Names carry an index but no uniqueness constraint. */
  datatype AuthorStore = AuthorStore(names: map<nat, string>, nextId: nat) {

    /** Every id in use is below the sequence. */
    predicate Valid()
    {
      forall id | id in names :: id < nextId
    }
  }

  /** The ids of the authors called `name`. */
  function AuthorsNamed(s: AuthorStore, name: string): (ids: set<nat>)
    ensures forall id :: id in ids <==> id in s.names && s.names[id] == name
  {
    set id | id in s.names && s.names[id] == name
  }

  /** No two authors share a name. */
  predicate UniqueNames(s: AuthorStore)
  {
    forall a, b | a in s.names && b in s.names && s.names[a] == s.names[b] :: a == b
  }
}

=== FILE: parsers.dfy ===
/** The resolvers that run on an extracted article: tag matching on the title
    and get-or-create of the author by name. */
module Parsers {
  import opened Wrappers
  import opened Text
  import opened TagModels
  import opened NewsModels

  // ---------------------------------------------------------------------
  // title_parser
  // ---------------------------------------------------------------------

  /** `title_parser`: the ids of the tags, in table order, whose name occurs in
      the title as a case-sensitive substring. There is no word-boundary
      check, so a short name inside a longer word matches too. */
  function TitleParser(tags: seq<Tag>, title: string): (ids: seq<nat>)
    ensures |ids| <= |tags|
  {
    if tags == [] then []
    else (if Contains(title, tags[0].name) then [tags[0].id] else []) + TitleParser(tags[1..], title)
  }

  /** The ids of a table, in table order. */
  function Ids(tags: seq<Tag>): (ids: seq<nat>)
    ensures |ids| == |tags|
    ensures forall k | 0 <= k < |tags| :: ids[k] == tags[k].id
  {
    if tags == [] then [] else [tags[0].id] + Ids(tags[1..])
  }

  /** `a` is `b` with some elements left out, the rest kept in order. */
  predicate IsSubsequence(a: seq<nat>, b: seq<nat>)
    decreases |b|
  {
    if a == [] then true
    else if b == [] then false
    else (a[0] == b[0] && IsSubsequence(a[1..], b[1..])) || IsSubsequence(a, b[1..])
  }

  /** An id is matched exactly when some tag with that id has a name occurring
      in the title. */
  lemma {:induction false} TitleParserMembers(tags: seq<Tag>, title: string)
    ensures forall id :: id in TitleParser(tags, title) <==>
      exists t | t in tags :: t.id == id && Contains(title, t.name)
  {
    if tags != [] {
      TitleParserMembers(tags[1..], title);
      assert forall t :: t in tags <==> t == tags[0] || t in tags[1..];
    }
  }

  /** The matched ids keep the table's order: they are a subsequence of the
      table's ids. */
  lemma {:induction false} TitleParserOrdered(tags: seq<Tag>, title: string)
    ensures IsSubsequence(TitleParser(tags, title), Ids(tags))
  {
    if tags != [] {
      TitleParserOrdered(tags[1..], title);
      var rest := TitleParser(tags[1..], title);
      var ids := Ids(tags);
      assert ids[1..] == Ids(tags[1..]);
      if Contains(title, tags[0].name) {
        assert TitleParser(tags, title) == [tags[0].id] + rest;
        assert ([tags[0].id] + rest)[1..] == rest;
      } else {
        assert TitleParser(tags, title) == rest;
        if rest != [] {
          assert IsSubsequence(rest, ids[1..]);
        }
      }
    }
  }

  /** A title in which no tag name occurs gets no tags. */
  lemma {:induction false} TitleParserNoMatch(tags: seq<Tag>, title: string)
    requires forall t | t in tags :: !Contains(title, t.name)
    ensures TitleParser(tags, title) == []
  {
    if tags != [] {
      assert tags[0] in tags;
      assert forall t | t in tags[1..] :: t in tags;
      TitleParserNoMatch(tags[1..], title);
    }
  }

  // ---------------------------------------------------------------------
  // author_parser
  // ---------------------------------------------------------------------

  /** `get_or_create` finds more than one author with the name. */
  datatype AuthorError = MultipleObjectsReturned

  /** A set with one element has no two different elements. */
  lemma SingletonElements<T>(s: set<T>)
    requires |s| == 1
    ensures forall a, b | a in s && b in s :: a == b
  {
    forall a, b | a in s && b in s ensures a == b {
      assert |s - {a}| == 0;
      assert b !in s - {a};
    }
  }

  /** With unique names, at most one author answers to a name. */
  lemma NamesUniqueAtMostOne(s: AuthorStore, name: string)
    requires UniqueNames(s)
    ensures |AuthorsNamed(s, name)| <= 1
  {
    var ids := AuthorsNamed(s, name);
    if ids != {} {
      var a :| a in ids;
      assert ids == {a};
    }
  }

  /** `author_parser`: the id of the author with this exact name, creating one
      under the next id when there is none; `get_or_create` raises when the
      name is shared by several authors. */
  function AuthorParser(s: AuthorStore, name: string): (r: Result<(nat, AuthorStore), AuthorError>)
    requires s.Valid()
    ensures r.Failure? <==> |AuthorsNamed(s, name)| > 1
    ensures r.Success? ==> r.value.1.Valid()
    ensures r.Success? ==> r.value.0 in r.value.1.names && r.value.1.names[r.value.0] == name
    ensures r.Success? && AuthorsNamed(s, name) != {} ==> r.value.1 == s
    ensures r.Success? && AuthorsNamed(s, name) == {} ==>
      && r.value.0 !in s.names
      && r.value.1.names == s.names[r.value.0 := name]
  {
    var ids := AuthorsNamed(s, name);
    if ids == {} then
      Success((s.nextId, AuthorStore(s.names[s.nextId := name], s.nextId + 1)))
    else if |ids| == 1 then
      SingletonElements(ids);
      var id :| id in ids;
      Success((id, s))
    else
      Failure(MultipleObjectsReturned)
  }

  /** Resolving a name that at most one author has twice gives the same id,
      and the second call leaves the author table as the first call left it.
      Other names may be shared. */
  lemma AuthorParserIdempotent(s: AuthorStore, name: string)
    requires s.Valid() && |AuthorsNamed(s, name)| <= 1
    ensures AuthorParser(s, name).Success?
    ensures AuthorParser(AuthorParser(s, name).value.1, name).Success?
    ensures AuthorParser(AuthorParser(s, name).value.1, name).value == AuthorParser(s, name).value
  {
    var ids := AuthorsNamed(s, name);
    var (id, s1) := AuthorParser(s, name).value;
    var ids1 := AuthorsNamed(s1, name);
    if ids != {} {
      SingletonElements(ids);
    }
    assert ids1 == {id} by {
      assert id in ids1;
      forall j | j in ids1 ensures j == id {
        if ids == {} {
          assert s1.names == s.names[id := name];
        }
      }
    }
  }

  /** Resolving through `author_parser` never makes two authors share a name. */
  lemma AuthorParserKeepsNamesUnique(s: AuthorStore, name: string)
    requires s.Valid() && UniqueNames(s)
    ensures AuthorParser(s, name).Success?
    ensures UniqueNames(AuthorParser(s, name).value.1)
  {
    NamesUniqueAtMostOne(s, name);
  }
}

=== FILE: scrapers.dfy ===
/** The scrapers of the NBA news site: the homepage scraper that lists the
    featured articles not yet stored, the article scraper that reads title,
    thumbnail, author and body from one article page, and the composition of
    the two around a page fetch.

    Parsing HTML and running CSS selectors happen outside the model: a page
    arrives as the raw text the fetch returned together with the nodes the
    selectors would pick out of it. A failed fetch is `None`. */
module Scrapers {
  import opened Wrappers
  import opened Text
  import opened NewsModels

  // ---------------------------------------------------------------------
  // Homepage
  // ---------------------------------------------------------------------

  /** The first `<a>` inside a slide; `href` is None when the attribute is missing. */
  datatype Anchor = Anchor(href: Option<string>)

  /** One `li.splide__slide` carousel item: its `id` attribute, if any, and
      its first anchor, if any. */
  datatype Slide = Slide(id: Option<string>, anchor: Option<Anchor>)

  /** A fetched homepage: the raw text and its slides in document order. */
  datatype HomePage = HomePage(html: string, slides: seq<Slide>)

  /** A carousel-generated copy of a real slide: its id contains "clone".
      A slide without an id reads as the empty id, so is never a clone. */
  predicate IsClone(s: Slide)
  {
    Contains(s.id.GetOr(""), "clone")
  }

  /** The URL an anchor points to, the empty string when it has no `href`. */
  function Href(a: Anchor): string
  {
    a.href.GetOr("")
  }

  /** The URL a slide offers before deduplication: none for a clone or a
      slide without an anchor. */
  function Candidate(s: Slide): Option<string>
  {
    if IsClone(s) || s.anchor.None? then None else Some(Href(s.anchor.value))
  }

  /** `check_if_news_exists`: an article with this original URL is stored. */
  predicate CheckIfNewsExists(news: seq<News>, url: string)
  {
    exists n | n in news :: n.originalUrl == url
  }

  /** The original URLs of the stored articles. */
  function StoredUrls(news: seq<News>): set<string>
  {
    set n | n in news :: n.originalUrl
  }

  /** Only the stored URLs decide `check_if_news_exists`: it holds exactly
      for a stored URL, so two news tables with the same URLs answer alike,
      whatever their titles or other fields. */
  lemma CheckIfNewsExistsUrlOnly(a: seq<News>, b: seq<News>, url: string)
    requires StoredUrls(a) == StoredUrls(b)
    ensures CheckIfNewsExists(a, url) <==> url in StoredUrls(a)
    ensures CheckIfNewsExists(a, url) <==> CheckIfNewsExists(b, url)
  {
    if url in StoredUrls(b) {
      var n :| n in b && n.originalUrl == url;
    }
    if CheckIfNewsExists(a, url) {
      var n :| n in a && n.originalUrl == url;
      assert url in StoredUrls(a);
    }
  }

  /** The featured URLs the homepage yields, slide by slide in document order. */
  function FeaturedUrls(slides: seq<Slide>, news: seq<News>): (urls: seq<string>)
    ensures |urls| <= |slides|
    ensures forall u :: u in urls <==>
      !CheckIfNewsExists(news, u) && exists k | 0 <= k < |slides| :: Candidate(slides[k]) == Some(u)
  {
    if slides == [] then []
    else
      var rest := FeaturedUrls(slides[1..], news);
      assert forall u :: (exists k | 0 <= k < |slides[1..]| :: Candidate(slides[1..][k]) == Some(u)) <==>
                         (exists k | 1 <= k < |slides| :: Candidate(slides[k]) == Some(u)) by {
        forall u ensures (exists k | 0 <= k < |slides[1..]| :: Candidate(slides[1..][k]) == Some(u)) <==>
                         (exists k | 1 <= k < |slides| :: Candidate(slides[k]) == Some(u))
        {
          if exists k | 1 <= k < |slides| :: Candidate(slides[k]) == Some(u) {
            var k :| 1 <= k < |slides| && Candidate(slides[k]) == Some(u);
            assert slides[1..][k - 1] == slides[k];
          }
        }
      }
      match Candidate(slides[0])
      case Some(u) => if CheckIfNewsExists(news, u) then rest else [u] + rest
      case None => rest
  }

  /** The homepage result is computed slide by slide: the URLs of a
      concatenation of slide lists are the concatenation of their URLs. With
      `FeaturedSingle` this pins the result down completely, order and
      repeats included. */
  lemma {:induction false} FeaturedAppend(a: seq<Slide>, b: seq<Slide>, news: seq<News>)
    ensures FeaturedUrls(a + b, news) == FeaturedUrls(a, news) + FeaturedUrls(b, news)
  {
    if a != [] {
      assert (a + b)[1..] == a[1..] + b;
      FeaturedAppend(a[1..], b, news);
    } else {
      assert a + b == b;
    }
  }

  /** One slide yields its anchor's URL exactly when it is not a clone, has an
      anchor, and no stored article has that URL; otherwise nothing. */
  lemma FeaturedSingle(s: Slide, news: seq<News>)
    ensures FeaturedUrls([s], news) ==
      if !IsClone(s) && s.anchor.Some? && !CheckIfNewsExists(news, Href(s.anchor.value))
      then [Href(s.anchor.value)] else []
  {
    assert [s][1..] == [];
  }

  /** No URL comes from a clone slide or an anchorless slide, and none is
      already stored. */
  lemma FeaturedNoCloneNoStored(slides: seq<Slide>, news: seq<News>, u: string)
    requires u in FeaturedUrls(slides, news)
    ensures !CheckIfNewsExists(news, u)
    ensures exists k | 0 <= k < |slides| ::
      !IsClone(slides[k]) && slides[k].anchor.Some? && Href(slides[k].anchor.value) == u
  {
  }

  /** `parse_soup_get_featured_news`: walks the slides, skips clones and
      anchorless slides, and keeps each URL no stored article has. */
  method ParseSoupGetFeaturedNews(slides: seq<Slide>, news: seq<News>) returns (urls: seq<string>)
    ensures urls == FeaturedUrls(slides, news)
  {
    urls := [];
    var i := 0;
    while i < |slides|
      invariant 0 <= i <= |slides|
      invariant urls == FeaturedUrls(slides[..i], news)
    {
      var slide := slides[i];
      FeaturedAppend(slides[..i], [slide], news);
      FeaturedSingle(slide, news);
      assert slides[..i + 1] == slides[..i] + [slide];
      if !Contains(slide.id.GetOr(""), "clone") {
        match slide.anchor {
          case Some(anchor) =>
            var url := anchor.href.GetOr("");
            var newsExists := CheckIfNewsExists(news, url);
            if !newsExists {
              urls := urls + [url];
            }
          case None =>
        }
      }
      i := i + 1;
    }
    assert slides[..i] == slides;
  }

  /** `get_homepage_featured_news_urls`: nothing when the fetch failed or
      returned an empty body, otherwise the featured URLs of the page. */
  function GetHomepageFeaturedNewsUrls(home: Option<HomePage>, news: seq<News>): (urls: seq<string>)
    ensures home.None? || home.value.html == "" ==> urls == []
    ensures home.Some? && home.value.html != "" ==> urls == FeaturedUrls(home.value.slides, news)
    ensures forall u | u in urls :: !CheckIfNewsExists(news, u)
  {
    match home
    case None => []
    case Some(page) => if page.html == "" then [] else FeaturedUrls(page.slides, news)
  }

  // ---------------------------------------------------------------------
  // Article page
  // ---------------------------------------------------------------------

  /** The first `img` under `.photo-story`; `src` is None when the attribute is missing. */
  datatype Img = Img(src: Option<string>)

  /** One `#story_body_content > span > p` paragraph: its text and whether a
      `figure` sits inside it. */
  datatype Para = Para(text: string, hasFigure: bool)

  /** A fetched article page: the raw text, the text of the `.story_art_title`
      element, the thumbnail image, the text of the `.shareBar__info--author`
      byline, and the body paragraphs in document order. */
  datatype ArticlePage = ArticlePage(
    html: string,
    titleText: Option<string>,
    img: Option<Img>,
    bylineText: Option<string>,
    paragraphs: seq<Para>)

  /** `get_title`: the stripped title text, or None when the element is
      missing or holds only whitespace. */
  function GetTitle(titleText: Option<string>): (r: Option<string>)
    ensures r.None? <==> titleText.None? || AllSpace(titleText.value)
    ensures r.Some? ==> r.value != [] && IsStripOf(titleText.value, r.value)
  {
    match titleText
    case None => None
    case Some(t) => if Strip(t) != [] then Some(Strip(t)) else None
  }

  /** `get_thumbnail`: the `src` of the photo, which may be the empty string. */
  function GetThumbnail(img: Option<Img>): (r: Option<string>)
    ensures r.Some? <==> img.Some? && img.value.src.Some?
    ensures r.Some? ==> r.value == img.value.src.value
  {
    match img
    case None => None
    case Some(i) => i.src
  }

  /** The reporter marker 記者 that opens an author byline. */
  const ReporterMark: string := "\U{8A18}\U{8005}"

  /** The full-width solidus ／ that closes the author's name. */
  const NameEnd: char := '\U{FF0F}'

  /** The pattern `記者(.*?)／` can match at position `a` of `s`: the marker
      sits there and some ／ follows it with no newline in between (`.` does
      not match a newline). */
  ghost predicate MatchStartsAt(s: string, a: int)
  {
    && 0 <= a && a + |ReporterMark| <= |s|
    && s[a..a + |ReporterMark|] == ReporterMark
    && exists b :: a + |ReporterMark| <= b < |s| && s[b] == NameEnd && '\n' !in s[a + |ReporterMark|..b]
  }

  /** `re.search` with the lazy group: the match starts at the leftmost
      position `a` where one can start, and the group `s[a + 2..b]` ends at the
      first ／ after the marker. */
  ghost predicate IsFirstMatch(s: string, a: int, b: int)
  {
    && MatchStartsAt(s, a)
    && (forall a' | 0 <= a' < a :: !MatchStartsAt(s, a'))
    && a + |ReporterMark| <= b < |s|
    && s[b] == NameEnd
    && NameEnd !in s[a + |ReporterMark|..b]
  }

  /** Scans for the end of the lazy group from `from`: the first ／, unless a
      newline comes first. */
  function GroupEnd(s: string, from: nat): (r: Option<nat>)
    requires from <= |s|
    ensures r.Some? ==> from <= r.value < |s| && s[r.value] == NameEnd
    ensures r.Some? ==> '\n' !in s[from..r.value] && NameEnd !in s[from..r.value]
    ensures r.None? ==> forall b | from <= b < |s| && s[b] == NameEnd :: '\n' in s[from..b]
    decreases |s| - from
  {
    if from == |s| then None
    else if s[from] == NameEnd then
      assert s[from..from] == [];
      Some(from)
    else if s[from] == '\n' then
      assert forall b | from < b <= |s| :: s[from] in s[from..b];
      None
    else
      var r := GroupEnd(s, from + 1);
      assert forall b | from + 1 <= b <= |s| :: s[from..b] == [s[from]] + s[from + 1..b];
      r
  }

  /** The first match of `記者(.*?)／` at or after position `i`, as the pair
      (match start, group end). */
  function Search(s: string, i: nat): (r: Option<(nat, nat)>)
    requires i <= |s|
    ensures r.Some? ==> i <= r.value.0 && MatchStartsAt(s, r.value.0)
    ensures r.Some? ==> r.value.0 + |ReporterMark| <= r.value.1 < |s| && s[r.value.1] == NameEnd
    ensures r.Some? ==> NameEnd !in s[r.value.0 + |ReporterMark|..r.value.1]
    ensures r.Some? ==> forall a | i <= a < r.value.0 :: !MatchStartsAt(s, a)
    ensures r.None? ==> forall a | i <= a :: !MatchStartsAt(s, a)
    decreases |s| - i
  {
    if i + |ReporterMark| > |s| then None
    else if s[i..i + |ReporterMark|] == ReporterMark && GroupEnd(s, i + |ReporterMark|).Some? then
      Some((i, GroupEnd(s, i + |ReporterMark|).value))
    else
      Search(s, i + 1)
  }

  /** `get_author`: the stripped text between the first matching 記者 and the
      next ／, or None when the byline is missing or the pattern does not match. */
  function GetAuthor(bylineText: Option<string>): (r: Option<string>)
    ensures r.None? <==> bylineText.None? || forall a :: !MatchStartsAt(bylineText.value, a)
    ensures r.Some? ==> exists a, b :: IsFirstMatch(bylineText.value, a, b) &&
                                       IsStripOf(bylineText.value[a + |ReporterMark|..b], r.value)
  {
    match bylineText
    case None => None
    case Some(t) =>
      match Search(t, 0)
      case None => None
      case Some(m) =>
        assert IsFirstMatch(t, m.0, m.1);
        Some(Strip(t[m.0 + |ReporterMark|..m.1]))
  }

  /** A paragraph that reaches the article body: no figure inside it, and
      some non-whitespace text. */
  predicate Survives(p: Para)
  {
    !p.hasFigure && !AllSpace(p.text)
  }

  /** The stripped texts of the surviving paragraphs, in document order. */
  function CleanedParagraphs(ps: seq<Para>): (r: seq<string>)
    ensures |r| <= |ps|
    ensures forall k | 0 <= k < |r| :: r[k] != [] && Trimmed(r[k])
  {
    if ps == [] then []
    else
      var rest := CleanedParagraphs(ps[1..]);
      if Survives(ps[0]) then [Strip(ps[0].text)] + rest else rest
  }

  /** A text is in the body exactly when it is the stripped text of a
      surviving paragraph; the body is empty exactly when none survives. */
  lemma {:induction false} CleanedMembers(ps: seq<Para>)
    ensures forall x :: x in CleanedParagraphs(ps) <==> exists p | p in ps :: Survives(p) && x == Strip(p.text)
    ensures CleanedParagraphs(ps) == [] <==> forall p | p in ps :: !Survives(p)
  {
    if ps != [] {
      CleanedMembers(ps[1..]);
      assert forall p :: p in ps <==> p == ps[0] || p in ps[1..];
    }
  }

  /** Paragraphs are cleaned one by one, in order. */
  lemma {:induction false} CleanedAppend(a: seq<Para>, b: seq<Para>)
    ensures CleanedParagraphs(a + b) == CleanedParagraphs(a) + CleanedParagraphs(b)
  {
    if a != [] {
      assert (a + b)[1..] == a[1..] + b;
      CleanedAppend(a[1..], b);
    } else {
      assert a + b == b;
    }
  }

  /** One paragraph contributes its stripped text when it survives, otherwise nothing. */
  lemma CleanedSingle(p: Para)
    ensures CleanedParagraphs([p]) == if Survives(p) then [Strip(p.text)] else []
  {
    assert [p][1..] == [];
  }

  /** `get_content`: the cleaned paragraphs joined with newlines, or None
      when no paragraph survives. */
  function GetContent(ps: seq<Para>): (r: Option<string>)
    ensures r.None? <==> forall p | p in ps :: !Survives(p)
    ensures r.Some? ==> r.value == Join(CleanedParagraphs(ps), "\n")
    ensures r.Some? ==> r.value != [] && Strip(r.value) == r.value
  {
    var cleaned := CleanedParagraphs(ps);
    CleanedMembers(ps);
    if cleaned == [] then None
    else
      var content := Join(cleaned, "\n");
      JoinTrimmed(cleaned, "\n");
      assert content[..0] == [] && content[0..|content|] == content && content[|content|..] == [];
      StripUnique(content, content);
      Some(content)
  }

  /** What `get_news_detail` returns on success. `author` may be None. */
  datatype NewsData = NewsData(title: string, thumbnail: string, author: Option<string>, content: string)

  /** `get_news_detail`: a record only when the page was fetched with a
      non-empty body and title, thumbnail and content are all non-empty; the
      author is read afterwards and never decides the outcome. */
  function GetNewsDetail(page: Option<ArticlePage>): (r: Option<NewsData>)
    ensures r.Some? <==>
      && page.Some? && page.value.html != ""
      && GetTitle(page.value.titleText).Some?
      && GetThumbnail(page.value.img).Some? && GetThumbnail(page.value.img).value != ""
      && GetContent(page.value.paragraphs).Some?
    ensures r.Some? ==>
      && r.value.title == GetTitle(page.value.titleText).value
      && r.value.thumbnail == GetThumbnail(page.value.img).value
      && r.value.content == GetContent(page.value.paragraphs).value
      && r.value.author == GetAuthor(page.value.bylineText)
    ensures r.Some? ==> r.value.title != "" && r.value.thumbnail != "" && r.value.content != ""
  {
    match page
    case None => None
    case Some(p) =>
      if p.html == "" then None
      else
        var title := GetTitle(p.titleText);
        var thumbnail := GetThumbnail(p.img);
        var content := GetContent(p.paragraphs);
        if title.None? || thumbnail.None? || thumbnail.value == "" || content.None? then None
        else Some(NewsData(title.value, thumbnail.value, GetAuthor(p.bylineText), content.value))
  }

  /** Whatever the byline says, the article is accepted or refused the same. */
  lemma AuthorNeverDecides(page: ArticlePage, byline: Option<string>)
    ensures GetNewsDetail(Some(page.(bylineText := byline))).Some? == GetNewsDetail(Some(page)).Some?
  {
  }
}

=== FILE: session_filter.dfy ===
/** `NewsSessionDateFilter`: the year/month/day query of the session list.
    The dependencies between the parameters are checked first; only then is
    each supplied component applied, one after another. */
module SessionFilter {
  import opened Wrappers
  import opened NewsModels

  /** One query parameter. `Present(None)` is a parameter given with an
      empty value: it counts as present for the dependency check, but its
      filter is skipped. */
  datatype Param = Absent | Present(value: Option<int>)

  datatype DateQuery = DateQuery(year: Param, month: Param, day: Param)

  /** The two `ValidationError`s, keyed `month` and `day`. */
  datatype QueryError = MonthWithoutYear | DayWithoutYearAndMonth

  /** The dependency check: a month needs a year, a day needs both; the
      month rule is looked at first. */
  function Validate(q: DateQuery): (r: Option<QueryError>)
    ensures r == Some(MonthWithoutYear) <==> q.month.Present? && q.year.Absent?
    ensures r == Some(DayWithoutYearAndMonth) <==>
      !(q.month.Present? && q.year.Absent?) && q.day.Present? && (q.year.Absent? || q.month.Absent?)
    ensures r.None? <==>
      (q.month.Present? ==> q.year.Present?) && (q.day.Present? ==> q.year.Present? && q.month.Present?)
  {
    if q.month.Present? && q.year.Absent? then Some(MonthWithoutYear)
    else if q.day.Present? && (q.year.Absent? || q.month.Absent?) then Some(DayWithoutYearAndMonth)
    else None
  }

  /** Which date component a filter extracts. */
  datatype Component = Year | Month | Day

  function Extract(d: Date, c: Component): int
  {
    match c
    case Year => d.year
    case Month => d.month
    case Day => d.day
  }

  /** The session passes the parameter for this component: the parameter
      is absent or empty, or the component equals its value. */
  predicate Admits(p: Param, s: NewsSession, c: Component)
  {
    p.Present? && p.value.Some? ==> Extract(s.createdAt, c) == p.value.value
  }

  /** `filter_year`, `filter_month` and `filter_day`: keeps, in order, the
      sessions whose component equals the value; an absent or empty
      parameter leaves the list as it is. */
  function FilterComponent(sessions: seq<NewsSession>, p: Param, c: Component): (r: seq<NewsSession>)
    ensures |r| <= |sessions|
    ensures forall s | s in r :: s in sessions && Admits(p, s, c)
    ensures !(p.Present? && p.value.Some?) ==> r == sessions
  {
    if !(p.Present? && p.value.Some?) then sessions
    else if sessions == [] then []
    else
      var rest := FilterComponent(sessions[1..], p, c);
      if Extract(sessions[0].createdAt, c) == p.value.value then [sessions[0]] + rest else rest
  }

  /** Reference definition of the query: the sessions that pass every
      supplied component, in their original order. */
  function KeepAll(sessions: seq<NewsSession>, q: DateQuery): (r: seq<NewsSession>)
  {
    if sessions == [] then []
    else
      var s := sessions[0];
      (if Admits(q.year, s, Year) && Admits(q.month, s, Month) && Admits(q.day, s, Day) then [s] else [])
      + KeepAll(sessions[1..], q)
  }

  /** `filter_queryset`: the validation error, or the sessions after the
      year, month and day filters. */
  function FilterSessions(sessions: seq<NewsSession>, q: DateQuery): (r: Result<seq<NewsSession>, QueryError>)
    ensures r.Failure? <==> Validate(q).Some?
    ensures r.Failure? ==> r.error == Validate(q).value
    ensures r.Success? ==> forall s | s in r.value ::
      s in sessions && Admits(q.year, s, Year) && Admits(q.month, s, Month) && Admits(q.day, s, Day)
  {
    match Validate(q)
    case Some(e) => Failure(e)
    case None =>
      Success(FilterComponent(FilterComponent(FilterComponent(sessions, q.year, Year), q.month, Month), q.day, Day))
  }

  /** A component filter is the one-component case of the reference. */
  lemma {:induction false} FilterComponentAsKeepAll(sessions: seq<NewsSession>, p: Param, c: Component)
    ensures FilterComponent(sessions, p, c) == KeepAll(sessions, Only(p, c))
  {
    if sessions != [] {
      FilterComponentAsKeepAll(sessions[1..], p, c);
      if !(p.Present? && p.value.Some?) {
        KeepAllNoConstraint(sessions, Only(p, c));
      }
    }
  }

  /** The query that constrains only component `c`, by `p`. */
  function Only(p: Param, c: Component): DateQuery
  {
    match c
    case Year => DateQuery(p, Absent, Absent)
    case Month => DateQuery(Absent, p, Absent)
    case Day => DateQuery(Absent, Absent, p)
  }

  /** A query that constrains nothing keeps every session. */
  lemma {:induction false} KeepAllNoConstraint(sessions: seq<NewsSession>, q: DateQuery)
    requires forall s | s in sessions :: Admits(q.year, s, Year) && Admits(q.month, s, Month) && Admits(q.day, s, Day)
    ensures KeepAll(sessions, q) == sessions
  {
    if sessions != [] {
      assert sessions[0] in sessions;
      assert forall s | s in sessions[1..] :: s in sessions;
      KeepAllNoConstraint(sessions[1..], q);
    }
  }

  /** Filtering component by component is the same as keeping the sessions
      that pass all components at once: the components combine with AND and
      the order of the list is kept. */
  lemma {:induction false} ComponentsCombineWithAnd(sessions: seq<NewsSession>, q: DateQuery)
    ensures FilterComponent(FilterComponent(FilterComponent(sessions, q.year, Year), q.month, Month), q.day, Day)
         == KeepAll(sessions, q)
  {
    if sessions != [] {
      ComponentsCombineWithAnd(sessions[1..], q);
      var s := sessions[0];
      var y := FilterComponent(sessions, q.year, Year);
      var ym := FilterComponent(y, q.month, Month);
      var y1 := FilterComponent(sessions[1..], q.year, Year);
      var ym1 := FilterComponent(y1, q.month, Month);
      if Admits(q.year, s, Year) {
        assert y == [s] + y1;
        assert y[1..] == y1;
        if Admits(q.month, s, Month) {
          assert ym == [s] + ym1;
          assert ym[1..] == ym1;
        } else {
          assert ym == ym1;
        }
      } else {
        assert y == y1;
      }
    }
  }

  /** A session is in the result exactly when it is one of the sessions and
      passes every supplied component. */
  lemma {:induction false} KeepAllMembers(sessions: seq<NewsSession>, q: DateQuery)
    ensures forall s :: s in KeepAll(sessions, q) <==>
      s in sessions && Admits(q.year, s, Year) && Admits(q.month, s, Month) && Admits(q.day, s, Day)
  {
    if sessions != [] {
      KeepAllMembers(sessions[1..], q);
      assert forall s :: s in sessions <==> s == sessions[0] || s in sessions[1..];
    }
  }

  /** A valid query returns exactly the sessions matching all its supplied
      components, in order. */
  lemma ValidQueryResult(sessions: seq<NewsSession>, q: DateQuery)
    requires Validate(q).None?
    ensures FilterSessions(sessions, q) == Success(KeepAll(sessions, q))
    ensures forall s :: s in FilterSessions(sessions, q).value <==>
      s in sessions && Admits(q.year, s, Year) && Admits(q.month, s, Month) && Admits(q.day, s, Day)
  {
    ComponentsCombineWithAnd(sessions, q);
    KeepAllMembers(sessions, q);
  }

  /** Without parameters every session is returned. */
  lemma NoParametersKeepsAll(sessions: seq<NewsSession>)
    ensures FilterSessions(sessions, DateQuery(Absent, Absent, Absent)) == Success(sessions)
  {
  }

  /** A year and a day without a month are refused, whatever their values. */
  lemma YearAndDayWithoutMonth(sessions: seq<NewsSession>, year: Option<int>, day: Option<int>)
    ensures FilterSessions(sessions, DateQuery(Present(year), Absent, Present(day))) == Failure(DayWithoutYearAndMonth)
  {
  }
}

=== FILE: tag_models.dfy ===
/** The `Tag` table: a name and a type (`Teams` or `Players`), unique on the
    (name, type) pair, with the checks Django's `full_clean` runs on it. */
module TagModels {
  import opened Wrappers

  /** The two `TypeChoices`. */
  const Teams: string := "Teams"
  const Players: string := "Players"

  /** `max_length` of both `CharField`s. */
  const MaxLength: nat := 255

  /** One row of the tag table. The column is called `type` in the source;
      `type` is a keyword here. */
  datatype Tag = Tag(id: nat, name: string, tagType: string)

  /** The uniqueness key of a tag. */
  function Key(t: Tag): (string, string)
  {
    (t.name, t.tagType)
  }

  /** `str(tag)`: a tag prints as its name, whatever its type. */
  function TagStr(t: Tag): string
  {
    t.name
  }

  /** The value is one of the `TypeChoices`. */
  predicate IsChoice(tagType: string)
  {
    tagType == Teams || tagType == Players
  }

  /** The tag table, in primary-key order, with the next value of the
      primary-key sequence. */
  datatype TagStore = TagStore(rows: seq<Tag>, nextId: nat) {

    /** Ids increase along the table and stay below the sequence, and no two
        rows share a (name, type) pair. */
    predicate Valid()
    {
      && (forall i | 0 <= i < |rows| :: rows[i].id < nextId)
      && (forall i, j | 0 <= i < j < |rows| :: rows[i].id < rows[j].id)
      && (forall i, j | 0 <= i < j < |rows| :: Key(rows[i]) != Key(rows[j]))
    }
  }

  /** A row with this (name, type) pair exists. */
  predicate HasPair(s: TagStore, name: string, tagType: string)
  {
    exists t | t in s.rows :: t.name == name && t.tagType == tagType
  }

  /** The set of (name, type) pairs present in `rows`. */
  function Keys(rows: seq<Tag>): set<(string, string)>
  {
    set t | t in rows :: Key(t)
  }

  /** Appending a row adds its pair. */
  lemma KeysAppend(rows: seq<Tag>, t: Tag)
    ensures Keys(rows + [t]) == Keys(rows) + {Key(t)}
  {
    assert forall u :: u in rows + [t] <==> u in rows || u == t;
  }

  /** Without repeated pairs, a table has as many rows as distinct pairs. */
  lemma {:induction false} KeysCardinality(rows: seq<Tag>)
    requires forall i, j | 0 <= i < j < |rows| :: Key(rows[i]) != Key(rows[j])
    ensures |Keys(rows)| == |rows|
  {
    if rows != [] {
      var init := rows[..|rows| - 1];
      var last := rows[|rows| - 1];
      KeysCardinality(init);
      assert rows == init + [last];
      KeysAppend(init, last);
      assert Key(last) !in Keys(init);
    }
  }

  /** The database refuses a row that breaks `unique_together`. */
  datatype IntegrityError = UniqueViolation

  /** `Tag.objects.create(name=…, type=…)`: inserts a row under the next id,
      or fails because the (name, type) pair is taken. Only the database
      constraint is checked here, not the field validators. */
  function Create(s: TagStore, name: string, tagType: string): (r: Result<(Tag, TagStore), IntegrityError>)
    requires s.Valid()
    ensures r.Failure? <==> HasPair(s, name, tagType)
    ensures r.Success? ==> r.value.1.Valid()
    ensures r.Success? ==> r.value.0.name == name && r.value.0.tagType == tagType
    ensures r.Success? ==> r.value.0.id !in set t | t in s.rows :: t.id
    ensures r.Success? ==> r.value.1.rows == s.rows + [r.value.0]
    ensures r.Success? ==> Keys(r.value.1.rows) == Keys(s.rows) + {(name, tagType)}
  {
    if HasPair(s, name, tagType) then
      Failure(UniqueViolation)
    else
      var t := Tag(s.nextId, name, tagType);
      var s' := TagStore(s.rows + [t], s.nextId + 1);
      KeysAppend(s.rows, t);
      assert s'.Valid() by {
        forall i, j | 0 <= i < j < |s'.rows| ensures Key(s'.rows[i]) != Key(s'.rows[j]) {
          if j == |s.rows| {
            assert s'.rows[i] in s.rows;
          }
        }
      }
      Success((t, s'))
  }

  /** A created tag prints as the name it was created with. */
  lemma CreatedTagPrintsAsName(s: TagStore, name: string, tagType: string)
    requires s.Valid() && !HasPair(s, name, tagType)
    ensures Create(s, name, tagType).Success?
    ensures TagStr(Create(s, name, tagType).value.0) == name
  {
  }

  /** A second create of the same (name, type) pair fails; the same name under
      another type not yet present is accepted, giving one more row. */
  lemma UniquePerType(s: TagStore, name: string, t1: string, t2: string)
    requires s.Valid()
    requires !HasPair(s, name, t1) && !HasPair(s, name, t2) && t1 != t2
    ensures Create(s, name, t1).Success?
    ensures Create(Create(s, name, t1).value.1, name, t1).Failure?
    ensures Create(Create(s, name, t1).value.1, name, t2).Success?
    ensures |Create(Create(s, name, t1).value.1, name, t2).value.1.rows| == |s.rows| + 2
  {
    var s1 := Create(s, name, t1).value.1;
    assert Create(s, name, t1).value.0 in s1.rows;
    assert !HasPair(s1, name, t2) by {
      forall t | t in s1.rows ensures !(t.name == name && t.tagType == t2) {
        if t !in s.rows {
          assert t == Create(s, name, t1).value.0;
        }
      }
    }
  }

  /** One finding of `full_clean`. */
  datatype CleanError = NameBlank | NameTooLong | TypeBlank | TypeInvalidChoice | NotUnique

  /** The errors `full_clean` raises for an unsaved tag: each field is checked
      for blankness, then for choices (type) or length (name); the
      `unique_together` check runs only when both fields passed. */
  function FullClean(s: TagStore, name: string, tagType: string): (errs: set<CleanError>)
    ensures errs == {} <==> 0 < |name| <= MaxLength && IsChoice(tagType) && !HasPair(s, name, tagType)
    ensures NameTooLong in errs <==> |name| > MaxLength
    ensures TypeInvalidChoice in errs <==> tagType != "" && !IsChoice(tagType)
    ensures NameBlank in errs <==> name == ""
    ensures TypeBlank in errs <==> tagType == ""
    ensures NotUnique in errs <==> 0 < |name| <= MaxLength && IsChoice(tagType) && HasPair(s, name, tagType)
  {
    var nameErrs: set<CleanError> :=
      if name == "" then {NameBlank} else if |name| > MaxLength then {NameTooLong} else {};
    var typeErrs: set<CleanError> :=
      if tagType == "" then {TypeBlank} else if !IsChoice(tagType) then {TypeInvalidChoice} else {};
    var uniqueErrs: set<CleanError> :=
      if nameErrs == {} && typeErrs == {} && HasPair(s, name, tagType) then {NotUnique} else {};
    nameErrs + typeErrs + uniqueErrs
  }

  /** A tag that passes `full_clean` is accepted by the database. */
  lemma CleanTagIsCreated(s: TagStore, name: string, tagType: string)
    requires s.Valid()
    requires FullClean(s, name, tagType) == {}
    ensures Create(s, name, tagType).Success?
    ensures |Create(s, name, tagType).value.1.rows| == |s.rows| + 1
  {
  }
}

=== FILE: tag_views.dfy ===
/** `TagFilter`: the `name` and `type` query of the tag list. The values are
    cleaned like form fields (absent becomes empty, surrounding whitespace is
    stripped); at most one of them may be non-empty. */
module TagViews {
  import opened Wrappers
  import opened Text
  import opened TagModels

  /** The raw query parameters; None when the parameter is not given. */
  datatype TagQuery = TagQuery(name: Option<string>, tagType: Option<string>)

  /** The `ValidationError` keyed `error`. */
  datatype TagQueryError = OnlyOneFilter

  /** A `CharFilter`'s cleaned value: the stripped parameter, or the empty
      string when it is not given. */
  function Cleaned(v: Option<string>): (c: string)
    ensures v.None? ==> c == ""
    ensures v.Some? ==> IsStripOf(v.value, c)
    ensures c == "" <==> v.None? || AllSpace(v.value)
  {
    Strip(v.GetOr(""))
  }

  /** The `name` lookup, `icontains`; an empty value keeps every tag. */
  predicate NameAdmits(name: string, t: Tag)
  {
    name == "" || IContains(t.name, name)
  }

  /** The `type` lookup, `exact`; an empty value keeps every tag. */
  predicate TypeAdmits(tagType: string, t: Tag)
  {
    tagType == "" || t.tagType == tagType
  }

  /** The tags, in order, that pass the `name` filter. */
  function FilterName(tags: seq<Tag>, name: string): (r: seq<Tag>)
    ensures |r| <= |tags|
    ensures forall t | t in r :: t in tags && NameAdmits(name, t)
  {
    if tags == [] then []
    else (if NameAdmits(name, tags[0]) then [tags[0]] else []) + FilterName(tags[1..], name)
  }

  /** The tags, in order, that pass the `type` filter. */
  function FilterType(tags: seq<Tag>, tagType: string): (r: seq<Tag>)
    ensures |r| <= |tags|
    ensures forall t | t in r :: t in tags && TypeAdmits(tagType, t)
  {
    if tags == [] then []
    else (if TypeAdmits(tagType, tags[0]) then [tags[0]] else []) + FilterType(tags[1..], tagType)
  }

  /** `filter_queryset`: refuses a non-empty name together with a non-empty
      type, and otherwise applies the name filter and then the type filter. */
  function FilterTags(tags: seq<Tag>, q: TagQuery): (r: Result<seq<Tag>, TagQueryError>)
    ensures r.Failure? <==> Cleaned(q.name) != "" && Cleaned(q.tagType) != ""
    ensures r.Success? ==> |r.value| <= |tags|
  {
    var name := Cleaned(q.name);
    var tagType := Cleaned(q.tagType);
    if name != "" && tagType != "" then Failure(OnlyOneFilter)
    else Success(FilterType(FilterName(tags, name), tagType))
  }

  /** Membership in the name filter, both directions. */
  lemma {:induction false} FilterNameMembers(tags: seq<Tag>, name: string)
    ensures forall t :: t in FilterName(tags, name) <==> t in tags && NameAdmits(name, t)
  {
    if tags != [] {
      FilterNameMembers(tags[1..], name);
      assert forall t :: t in tags <==> t == tags[0] || t in tags[1..];
    }
  }

  /** Membership in the type filter, both directions. */
  lemma {:induction false} FilterTypeMembers(tags: seq<Tag>, tagType: string)
    ensures forall t :: t in FilterType(tags, tagType) <==> t in tags && TypeAdmits(tagType, t)
  {
    if tags != [] {
      FilterTypeMembers(tags[1..], tagType);
      assert forall t :: t in tags <==> t == tags[0] || t in tags[1..];
    }
  }

  /** An empty value imposes no constraint. */
  lemma {:induction false} FilterNameEmpty(tags: seq<Tag>)
    ensures FilterName(tags, "") == tags
  {
    if tags != [] {
      FilterNameEmpty(tags[1..]);
    }
  }

  /** An empty value imposes no constraint. */
  lemma {:induction false} FilterTypeEmpty(tags: seq<Tag>)
    ensures FilterType(tags, "") == tags
  {
    if tags != [] {
      FilterTypeEmpty(tags[1..]);
    }
  }

  /** An accepted query returns exactly the tags whose name contains the
      cleaned name case-insensitively and whose type equals the cleaned
      type, an empty value constraining nothing. */
  lemma FilterTagsMembers(tags: seq<Tag>, q: TagQuery)
    ensures FilterTags(tags, q).Success? ==> forall t :: t in FilterTags(tags, q).value <==>
      t in tags && NameAdmits(Cleaned(q.name), t) && TypeAdmits(Cleaned(q.tagType), t)
  {
    var name := Cleaned(q.name);
    FilterNameMembers(tags, name);
    FilterTypeMembers(FilterName(tags, name), Cleaned(q.tagType));
  }

  /** Without values, or with only whitespace in them, every tag is returned. */
  lemma BlankQueryKeepsAll(tags: seq<Tag>, q: TagQuery)
    requires q.name.None? || AllSpace(q.name.value)
    requires q.tagType.None? || AllSpace(q.tagType.value)
    ensures FilterTags(tags, q) == Success(tags)
  {
    FilterNameEmpty(tags);
    FilterTypeEmpty(tags);
  }

  /** A value matches a name that starts with it up to ASCII case. */
  lemma NameStartsWith(name: string, query: string)
    requires |query| <= |name| && Lower(name[..|query|]) == Lower(query)
    ensures IContains(name, query)
  {
    assert Lower(name)[..|query|] == Lower(name[..|query|]);
    assert OccursAt(Lower(name), Lower(query), 0);
  }

  /** "manchester" matches "Manchester United". */
  lemma ManchesterUnited()
    ensures NameAdmits("manchester", Tag(2, "Manchester United", Teams))
  {
    var query, name := "manchester", "Manchester United";
    assert name[..|query|] == "Manchester";
    NameStartsWith(name, query);
  }

  /** "manchester" matches "Manchester City". */
  lemma ManchesterCity()
    ensures NameAdmits("manchester", Tag(3, "Manchester City", Teams))
  {
    var query, name := "manchester", "Manchester City";
    assert name[..|query|] == "Manchester";
    NameStartsWith(name, query);
  }

  /** "manchester" does not match "Bayern Munich", which has no `t`. */
  lemma ManchesterNotBayern()
    ensures !NameAdmits("manchester", Tag(1, "Bayern Munich", Teams))
  {
    var query, name := "manchester", "Bayern Munich";
    assert Lower(query)[7] == 't';
    assert forall k | 0 <= k < |name| :: AsciiLower(name[k]) != 't';
    NotContainsChar(Lower(name), Lower(query), 't');
  }

  /** "manchester" does not match "Ronaldo", which is shorter. */
  lemma ManchesterNotRonaldo()
    ensures !NameAdmits("manchester", Tag(4, "Ronaldo", Players))
  {
    var query, name := "manchester", "Ronaldo";
    assert |Lower(name)| < |Lower(query)|;
  }
}

=== FILE: tasks.dfy ===
/** The two background tasks: `fetch_news` lists the new featured articles,
    opens a scrape session and dispatches one job per article;
    `process_news_article` turns one job into a stored article.

    The database is a value: a transition returns the new database, and
    dispatching a job appends it to a returned list instead of queueing it.
    Fetched pages and the session's creation date are inputs. */
module Tasks {
  import opened Wrappers
  import opened TagModels
  import opened NewsModels
  import opened Scrapers
  import opened Parsers

  /** The tables the tasks read and write, with their id sequences. */
  datatype Db = Db(
    sessions: seq<NewsSession>,
    nextSession: nat,
    news: seq<News>,
    nextNews: nat,
    authors: AuthorStore,
    tags: TagStore)

  /** A session with this id exists. */
  predicate SessionExists(sessions: seq<NewsSession>, id: nat)
  {
    exists s | s in sessions :: s.id == id
  }

  /** A tag with this id exists. */
  predicate TagExists(rows: seq<Tag>, id: nat)
  {
    exists t | t in rows :: t.id == id
  }

  /** Ids stay below their sequences and every foreign key of a stored
      article points at an existing session, author and tags. */
  predicate Valid(db: Db)
  {
    && db.authors.Valid()
    && db.tags.Valid()
    && (forall s | s in db.sessions :: s.id < db.nextSession)
    && (forall n | n in db.news :: n.id < db.nextNews)
    && (forall n | n in db.news :: SessionExists(db.sessions, n.session))
    && (forall n | n in db.news :: n.author.Some? ==> n.author.value in db.authors.names)
    && (forall n, id | n in db.news && id in n.tags :: TagExists(db.tags.rows, id))
  }

  /** One dispatched `process_news_article(url, session_id)` call. */
  datatype Job = Job(url: string, sessionId: nat)

  /** What `fetch_news` reports. */
  datatype FetchOutcome = NoNewNews | Started(count: nat)

  datatype FetchResult = FetchResult(outcome: FetchOutcome, db: Db, jobs: seq<Job>)

  /** `fetch_news`: when the homepage yields no new URL, nothing happens;
      otherwise one session is created on `now` and one job per URL is
      dispatched, in homepage order, all carrying the new session's id. */
  function FetchNews(db: Db, home: Option<HomePage>, now: Date): (r: FetchResult)
    requires Valid(db)
    ensures var urls := GetHomepageFeaturedNewsUrls(home, db.news);
      && (urls == [] <==> r.outcome == NoNewNews)
      && (urls == [] ==> r.db == db && r.jobs == [])
      && (urls != [] ==>
            && r.outcome == Started(|urls|)
            && |r.jobs| == |urls|
            && (forall k | 0 <= k < |urls| :: r.jobs[k].url == urls[k])
            && (forall k | 0 <= k < |urls| :: r.jobs[k].sessionId == r.jobs[0].sessionId)
            && !SessionExists(db.sessions, r.jobs[0].sessionId)
            && r.db.sessions == db.sessions + [NewsSession(r.jobs[0].sessionId, now)]
            && r.db == db.(sessions := r.db.sessions, nextSession := r.db.nextSession))
    ensures Valid(r.db)
    ensures forall j | j in r.jobs :: SessionExists(r.db.sessions, j.sessionId)
  {
    var urls := GetHomepageFeaturedNewsUrls(home, db.news);
    if urls == [] then
      FetchResult(NoNewNews, db, [])
    else
      var id := db.nextSession;
      var session := NewsSession(id, now);
      var db' := db.(sessions := db.sessions + [session], nextSession := id + 1);
      assert session in db'.sessions;
      assert forall s | s in db.sessions :: s in db'.sessions;
      var jobs := seq(|urls|, k requires 0 <= k < |urls| => Job(urls[k], id));
      FetchResult(Started(|urls|), db', jobs)
  }

  /** What `process_news_article` reports. `AuthorLookupFailed` stands for the
      exception `get_or_create` raises when several authors share the name;
      `AuthorAssignFailed` for the `ValueError` the `News` constructor raises
      when `author=` is given an id instead of an `Author`. Both roll the
      atomic block back. */
  datatype ProcessOutcome = SessionNotFound | DetailFailed | AuthorLookupFailed | AuthorAssignFailed | Processed(title: string)

  datatype ProcessResult = ProcessResult(outcome: ProcessOutcome, db: Db)

  /** The author id of a new article: none when the byline gave no name or
      an empty one, otherwise the id `author_parser` resolves the name to. */
  function ResolveAuthor(authors: AuthorStore, author: Option<string>): (r: Result<(Option<nat>, AuthorStore), AuthorError>)
    requires authors.Valid()
    ensures author.None? || author.value == "" ==> r == Success((None, authors))
    ensures author.Some? && author.value != "" ==>
      match AuthorParser(authors, author.value)
      case Success((id, s)) => r == Success((Some(id), s))
      case Failure(e) => r.Failure?
  {
    if author.None? || author.value == "" then Success((None, authors))
    else
      match AuthorParser(authors, author.value)
      case Success((id, s)) => Success((Some(id), s))
      case Failure(e) => Failure(e)
  }

  /** Appends an article to the news table, with the author table the author
      lookup left behind. */
  function AddNews(db: Db, n: News, authors: AuthorStore): (r: Db)
    requires Valid(db) && authors.Valid()
    requires forall id | id in db.authors.names :: id in authors.names
    requires n.id == db.nextNews
    requires SessionExists(db.sessions, n.session)
    requires n.author.Some? ==> n.author.value in authors.names
    requires forall id | id in n.tags :: TagExists(db.tags.rows, id)
    ensures Valid(r)
    ensures r == db.(news := db.news + [n], nextNews := db.nextNews + 1, authors := authors)
  {
    var r := db.(news := db.news + [n], nextNews := db.nextNews + 1, authors := authors);
    assert forall m | m in r.news :: m in db.news || m == n;
    r
  }

  /** The detail names no author: `news_detail["author"]` is falsy. */
  predicate Authorless(detail: NewsData)
  {
    detail.author.None? || detail.author.value == ""
  }

  /** The atomic block of `process_news_article` as written: `author_parser`
      returns the author's id, and `News.objects.create(author=<id>, …)`
      raises `ValueError` because a foreign key accepts only an `Author` or
      None. So an article with a named author is never stored, and an author
      row `get_or_create` has just added is rolled back with it. */
  function StoreArticle(db: Db, job: Job, detail: NewsData): (r: ProcessResult)
    requires Valid(db)
    requires SessionExists(db.sessions, job.sessionId)
    ensures r.outcome == AuthorLookupFailed || r.outcome == AuthorAssignFailed || r.outcome == Processed(detail.title)
    ensures r.outcome == AuthorLookupFailed <==> ResolveAuthor(db.authors, detail.author).Failure?
    ensures r.outcome == AuthorAssignFailed <==> !Authorless(detail) && ResolveAuthor(db.authors, detail.author).Success?
    ensures r.outcome.Processed? <==> Authorless(detail)
    ensures !r.outcome.Processed? ==> r.db == db
    ensures r.outcome.Processed? ==>
      && r == StoreArticleIntended(db, job, detail)
      && r.db.news[|db.news|].author.None?
      && r.db.authors == db.authors
    ensures Valid(r.db)
  {
    var tags := TitleParser(db.tags.rows, detail.title);
    match ResolveAuthor(db.authors, detail.author)
    case Failure(_) => ProcessResult(AuthorLookupFailed, db)
    case Success((Some(_), _)) => ProcessResult(AuthorAssignFailed, db)
    case Success((None, authors)) =>
      var n := News(
        db.nextNews, detail.title, detail.content, job.url, detail.thumbnail,
        None, job.sessionId, set id | id in tags);
      TitleParserMembers(db.tags.rows, detail.title);
      ProcessResult(Processed(detail.title), AddNews(db, n, authors))
  }

  /** Where the two blocks part: a named author whose lookup succeeds is
      stored by the intended block and rolls the block back as written. */
  lemma NamedAuthorIsRolledBack(db: Db, job: Job, detail: NewsData)
    requires Valid(db) && SessionExists(db.sessions, job.sessionId)
    requires !Authorless(detail) && ResolveAuthor(db.authors, detail.author).Success?
    ensures StoreArticle(db, job, detail) == ProcessResult(AuthorAssignFailed, db)
    ensures var r := StoreArticleIntended(db, job, detail);
      && r.outcome == Processed(detail.title)
      && |r.db.news| == |db.news| + 1
      && r.db.news[|db.news|].author.Some?
  {
  }

  /** Without an author the two blocks agree. */
  lemma AuthorlessAgrees(db: Db, job: Job, detail: NewsData)
    requires Valid(db) && SessionExists(db.sessions, job.sessionId)
    requires Authorless(detail)
    ensures StoreArticle(db, job, detail) == StoreArticleIntended(db, job, detail)
  {
  }

  /** The atomic block of `process_news_article` as evidently intended, with
      the resolved `Author` (not its id) handed to the `News` constructor:
      the tags and the author are resolved and the article is stored, unless
      the author lookup raises, which rolls everything back. */
  function StoreArticleIntended(db: Db, job: Job, detail: NewsData): (r: ProcessResult)
    requires Valid(db)
    requires SessionExists(db.sessions, job.sessionId)
    ensures r.outcome == AuthorLookupFailed || r.outcome == Processed(detail.title)
    ensures r.outcome == AuthorLookupFailed <==> ResolveAuthor(db.authors, detail.author).Failure?
    ensures !r.outcome.Processed? ==> r.db == db
    ensures r.outcome.Processed? ==>
      && |r.db.news| == |db.news| + 1
      && r.db.news[..|db.news|] == db.news
      && var n := r.db.news[|db.news|];
      && n.id !in (set m | m in db.news :: m.id)
      && n.originalUrl == job.url
      && n.session == job.sessionId
      && n.title == detail.title
      && n.content == detail.content
      && n.thumbnailUrl == detail.thumbnail
      && n.tags == (set id | id in TitleParser(db.tags.rows, detail.title))
      && (n.author.None? <==> detail.author.None? || detail.author.value == "")
      && (n.author.Some? ==> n.author.value in r.db.authors.names && r.db.authors.names[n.author.value] == detail.author.value)
      && ResolveAuthor(db.authors, detail.author) == Success((n.author, r.db.authors))
      && r.db == db.(news := db.news + [n], nextNews := db.nextNews + 1, authors := r.db.authors)
    ensures Valid(r.db)
  {
    var tags := TitleParser(db.tags.rows, detail.title);
    match ResolveAuthor(db.authors, detail.author)
    case Failure(_) => ProcessResult(AuthorLookupFailed, db)
    case Success((author, authors)) =>
      var n := News(
        db.nextNews, detail.title, detail.content, job.url, detail.thumbnail,
        author, job.sessionId, set id | id in tags);
      TitleParserMembers(db.tags.rows, detail.title);
      var db' := AddNews(db, n, authors);
      assert db'.news[..|db.news|] == db.news;
      ProcessResult(Processed(detail.title), db')
  }

  /** `process_news_article`: with a known session and a complete article, one
      new article is stored with the page's fields, the title's tags and the
      resolved author; in every other case the database is unchanged. */
  function ProcessNewsArticle(db: Db, job: Job, page: Option<ArticlePage>): (r: ProcessResult)
    requires Valid(db)
    ensures !SessionExists(db.sessions, job.sessionId) ==> r == ProcessResult(SessionNotFound, db)
    ensures SessionExists(db.sessions, job.sessionId) && GetNewsDetail(page).None? ==>
      r == ProcessResult(DetailFailed, db)
    ensures SessionExists(db.sessions, job.sessionId) && GetNewsDetail(page).Some? ==>
      r == StoreArticle(db, job, GetNewsDetail(page).value)
    ensures Valid(r.db)
  {
    if !SessionExists(db.sessions, job.sessionId) then
      ProcessResult(SessionNotFound, db)
    else
      match GetNewsDetail(page)
      case None => ProcessResult(DetailFailed, db)
      case Some(detail) => StoreArticle(db, job, detail)
  }

  /** Once an article is stored, the homepage never offers its URL again. */
  lemma ProcessedUrlIsDeduplicated(db: Db, job: Job, page: Option<ArticlePage>, slides: seq<Slide>)
    requires Valid(db)
    ensures ProcessNewsArticle(db, job, page).outcome.Processed? ==>
      job.url !in FeaturedUrls(slides, ProcessNewsArticle(db, job, page).db.news)
  {
    var r := ProcessNewsArticle(db, job, page);
    if r.outcome.Processed? {
      assert r.db.news[|db.news|] in r.db.news;
    }
  }

  /** Runs the dispatched jobs one after another, each on the page fetched
      for it. */
  function RunJobs(db: Db, jobs: seq<Job>, pages: seq<Option<ArticlePage>>): (r: Db)
    requires Valid(db)
    requires |pages| == |jobs|
    ensures Valid(r)
    ensures r.sessions == db.sessions && r.tags == db.tags
    ensures |db.news| <= |r.news| && r.news[..|db.news|] == db.news
    decreases |jobs|
  {
    if jobs == [] then db
    else
      var db1 := ProcessNewsArticle(db, jobs[0], pages[0]).db;
      var r := RunJobs(db1, jobs[1..], pages[1..]);
      assert r.news[..|db.news|] == r.news[..|db1.news|][..|db.news|];
      r
  }

  /** The page gives a complete article that names no author: the only
      kind `process_news_article` stores as written. */
  predicate Storable(page: Option<ArticlePage>)
  {
    GetNewsDetail(page).Some? && Authorless(GetNewsDetail(page).value)
  }

  /** How many of the pages give a storable article. */
  function CountStorable(pages: seq<Option<ArticlePage>>): (c: nat)
    ensures c <= |pages|
  {
    if pages == [] then 0
    else (if Storable(pages[0]) then 1 else 0) + CountStorable(pages[1..])
  }

  /** The URLs of a run of articles, in order. */
  function Urls(news: seq<News>): seq<string>
  {
    if news == [] then [] else [news[0].originalUrl] + Urls(news[1..])
  }

  lemma {:induction false} UrlsAppend(a: seq<News>, b: seq<News>)
    ensures Urls(a + b) == Urls(a) + Urls(b)
  {
    if a != [] {
      assert (a + b)[1..] == a[1..] + b;
      UrlsAppend(a[1..], b);
    } else {
      assert a + b == b;
    }
  }

  /** For nested prefixes `a <= b <= c`, the part of `c` after `a` is the
      part of `b` after `a` followed by the part of `c` after `b`. */
  lemma SliceChain(a: seq<News>, b: seq<News>, c: seq<News>)
    requires |a| <= |b| <= |c| && c[..|b|] == b
    ensures c[|a|..] == b[|a|..] + c[|b|..]
  {
  }

  /** The URLs of the jobs whose page is storable, in job order. */
  function StorableUrls(jobs: seq<Job>, pages: seq<Option<ArticlePage>>): seq<string>
    requires |pages| == |jobs|
  {
    if jobs == [] then []
    else (if Storable(pages[0]) then [jobs[0].url] else []) + StorableUrls(jobs[1..], pages[1..])
  }

  /** One job whose session exists: a storable page appends one article
      carrying the job's URL and no author, any other page appends nothing,
      and the sessions and authors are left as they are. */
  lemma OneJob(db: Db, job: Job, page: Option<ArticlePage>)
    requires Valid(db)
    requires SessionExists(db.sessions, job.sessionId)
    ensures var r := ProcessNewsArticle(db, job, page).db;
      && r.sessions == db.sessions
      && r.authors == db.authors
      && (Storable(page) ==>
            |r.news| == |db.news| + 1 && r.news == db.news + [r.news[|db.news|]]
            && r.news[|db.news|].originalUrl == job.url
            && r.news[|db.news|].author.None?)
      && (!Storable(page) ==> r.news == db.news)
  {
  }

  /** A failing article does not stop the others: when every job's session
      exists, the articles the run appends carry exactly the URLs of the
      jobs whose page is storable, one each and in job order, and the author
      table is never changed. */
  lemma {:induction false} RunJobsStoresAuthorlessArticles(db: Db, jobs: seq<Job>, pages: seq<Option<ArticlePage>>)
    requires Valid(db)
    requires |pages| == |jobs|
    requires forall j | j in jobs :: SessionExists(db.sessions, j.sessionId)
    ensures Urls(RunJobs(db, jobs, pages).news[|db.news|..]) == StorableUrls(jobs, pages)
    ensures |RunJobs(db, jobs, pages).news| == |db.news| + CountStorable(pages)
    ensures RunJobs(db, jobs, pages).authors == db.authors
    decreases |jobs|
  {
    var r := RunJobs(db, jobs, pages);
    UrlsLength(r.news[|db.news|..]);
    StorableUrlsCount(jobs, pages);
    if jobs == [] {
      assert r.news[|db.news|..] == [];
    } else {
      var db1 := ProcessNewsArticle(db, jobs[0], pages[0]).db;
      assert jobs[0] in jobs;
      OneJob(db, jobs[0], pages[0]);
      assert forall j | j in jobs[1..] :: j in jobs;
      RunJobsStoresAuthorlessArticles(db1, jobs[1..], pages[1..]);
      assert r == RunJobs(db1, jobs[1..], pages[1..]);
      var m, m1 := |db.news|, |db1.news|;
      SliceChain(db.news, db1.news, r.news);
      UrlsAppend(db1.news[m..], r.news[m1..]);
      if Storable(pages[0]) {
        assert db1.news[m..] == [db1.news[m]];
      } else {
        assert db1.news[m..] == [];
      }
    }
  }

  /** The number of URLs the storable pages contribute. */
  lemma {:induction false} StorableUrlsCount(jobs: seq<Job>, pages: seq<Option<ArticlePage>>)
    requires |pages| == |jobs|
    ensures |StorableUrls(jobs, pages)| == CountStorable(pages)
  {
    if jobs != [] {
      StorableUrlsCount(jobs[1..], pages[1..]);
    }
  }

  lemma {:induction false} UrlsLength(news: seq<News>)
    ensures |Urls(news)| == |news|
  {
    if news != [] {
      UrlsLength(news[1..]);
    }
  }

  /** `fetch_news` followed by its jobs: every job finds its session, so the
      run keeps every earlier article and appends one article per featured
      URL whose page is storable, carrying that URL, in homepage order, and
      no other. */
  lemma ScrapeCycleStoresAuthorlessArticles(db: Db, home: Option<HomePage>, now: Date, pages: seq<Option<ArticlePage>>)
    requires Valid(db)
    requires |pages| == |FetchNews(db, home, now).jobs|
    ensures var f := FetchNews(db, home, now);
      var r := RunJobs(f.db, f.jobs, pages);
      && Urls(r.news[|db.news|..]) == StorableUrls(f.jobs, pages)
      && |r.news| == |db.news| + CountStorable(pages)
      && r.news[..|db.news|] == db.news
      && r.authors == db.authors
  {
    var f := FetchNews(db, home, now);
    RunJobsStoresAuthorlessArticles(f.db, f.jobs, pages);
  }
}

=== FILE: text.dfy ===
/** The Python string operations the scrapers and filters rely on, over
    `string` = `seq<char>`: `str.isspace`, `str.strip`, the substring test
    `needle in hay`, `sep.join(parts)` and the case folding of a
    case-insensitive SQL `LIKE`. */
module Text {

  /** Python's `str.isspace()` for one character: the ASCII controls
      TAB..CR and FS..US, the space, NEL, NBSP and the Unicode space
      separators, line and paragraph separators. */
  predicate IsSpace(c: char)
  {
    || c == ' '
    || ('\t' <= c <= '\r')
    || ('\U{1C}' <= c <= '\U{1F}')
    || c == '\U{85}'
    || c == '\U{A0}'
    || c == '\U{1680}'
    || ('\U{2000}' <= c <= '\U{200A}')
    || c == '\U{2028}'
    || c == '\U{2029}'
    || c == '\U{202F}'
    || c == '\U{205F}'
    || c == '\U{3000}'
  }

  /** Every character of `s` is whitespace (true of the empty string). */
  predicate AllSpace(s: string)
  {
    forall c | c in s :: IsSpace(c)
  }

  /** `s` neither starts nor ends with whitespace. */
  predicate Trimmed(s: string)
  {
    s == [] || (!IsSpace(s[0]) && !IsSpace(s[|s| - 1]))
  }

  /** `r` is what is left of `s` after removing a whitespace prefix and a
      whitespace suffix, and `r` itself has no whitespace at either end:
      the meaning of `r == s.strip()`. */
  ghost predicate IsStripOf(s: string, r: string)
  {
    && Trimmed(r)
    && exists i :: 0 <= i <= |s| - |r| && AllSpace(s[..i]) && s[i..i + |r|] == r && AllSpace(s[i + |r|..])
  }

  /** The length of the longest whitespace prefix of `s`. */
  function LeadingSpaces(s: string): (n: nat)
    ensures n <= |s|
    ensures AllSpace(s[..n])
    ensures n < |s| ==> !IsSpace(s[n])
  {
    if |s| > 0 && IsSpace(s[0]) then
      var m := LeadingSpaces(s[1..]);
      assert s[..m + 1] == [s[0]] + s[1..][..m];
      m + 1
    else
      0
  }

  /** The length of the longest whitespace suffix of `s`. */
  function TrailingSpaces(s: string): (n: nat)
    ensures n <= |s|
    ensures AllSpace(s[|s| - n..])
    ensures n < |s| ==> !IsSpace(s[|s| - n - 1])
  {
    if |s| > 0 && IsSpace(s[|s| - 1]) then
      var t := s[..|s| - 1];
      var m := TrailingSpaces(t);
      assert s[|s| - (m + 1)..] == t[|t| - m..] + [s[|s| - 1]];
      m + 1
    else
      0
  }

  /** Python's `s.strip()`: `s` without its leading and trailing whitespace. */
  function Strip(s: string): (r: string)
    ensures IsStripOf(s, r)
    ensures r == [] <==> AllSpace(s)
  {
    var lead := LeadingSpaces(s);
    if lead == |s| then
      assert s[..0] == [] && s[0..0] == [] && s[0..] == s;
      []
    else
      var trail := TrailingSpaces(s);
      assert |s| - trail > lead by {
        assert s[lead] in s[|s| - trail..] || |s| - trail > lead;
      }
      var r := s[lead..|s| - trail];
      assert s[lead + |r|..] == s[|s| - trail..];
      assert !AllSpace(s) by { assert !IsSpace(s[lead]); }
      r
  }

  /** The whitespace prefix ends exactly at the first non-whitespace character. */
  lemma LeadingSpacesAt(s: string, i: nat)
    requires i < |s| && AllSpace(s[..i]) && !IsSpace(s[i])
    ensures LeadingSpaces(s) == i
  {
  }

  /** The whitespace suffix starts just after the last non-whitespace character. */
  lemma TrailingSpacesAt(s: string, j: nat)
    requires 0 < j <= |s| && AllSpace(s[j..]) && !IsSpace(s[j - 1])
    ensures TrailingSpaces(s) == |s| - j
  {
  }

  /** Two all-whitespace pieces make an all-whitespace string. */
  lemma AllSpaceConcat(s: string, i: nat)
    requires i <= |s| && AllSpace(s[..i]) && AllSpace(s[i..])
    ensures AllSpace(s)
  {
    forall c | c in s ensures IsSpace(c) {
      var k :| 0 <= k < |s| && s[k] == c;
      if k < i { assert s[k] in s[..i]; }
      else { assert s[k] in s[i..]; }
    }
  }

  /** A non-empty piece with no whitespace at either end, between a
      whitespace prefix and a whitespace suffix, is the strip. */
  lemma StripOfPiece(s: string, r: string, i: nat)
    requires r != [] && Trimmed(r) && i + |r| <= |s| && s[i..i + |r|] == r
    requires AllSpace(s[..i]) && AllSpace(s[i + |r|..])
    ensures Strip(s) == r
  {
    assert s[i] == r[0];
    LeadingSpacesAt(s, i);
    assert s[i + |r| - 1] == r[|r| - 1];
    TrailingSpacesAt(s, i + |r|);
    assert !AllSpace(s) by { assert s[i] in s; }
  }

  /** A whitespace-free-edged core is determined uniquely: `Strip` is the
      only function satisfying `IsStripOf`. */
  lemma StripUnique(s: string, r: string)
    requires IsStripOf(s, r)
    ensures r == Strip(s)
  {
    var i :| 0 <= i <= |s| - |r| && AllSpace(s[..i]) && s[i..i + |r|] == r && AllSpace(s[i + |r|..]);
    if r == [] {
      AllSpaceConcat(s, i);
    } else {
      StripOfPiece(s, r, i);
    }
  }

  /** Stripping twice is stripping once. */
  lemma StripIdempotent(s: string)
    ensures Strip(Strip(s)) == Strip(s)
  {
    StripTrimmed(Strip(s));
  }

  /** A string with no whitespace at either end strips to itself. */
  lemma StripTrimmed(s: string)
    requires Trimmed(s)
    ensures Strip(s) == s
  {
    assert s[..0] == [] && s[0..|s|] == s && s[|s|..] == [];
    StripUnique(s, s);
  }

  /** `hay[i..]` begins with `needle`. */
  ghost predicate OccursAt(hay: string, needle: string, i: int)
  {
    0 <= i && i + |needle| <= |hay| && hay[i..i + |needle|] == needle
  }

  /** Python's `needle in hay` on strings: `needle` is a contiguous substring
      of `hay` (the empty string is a substring of every string). */
  predicate Contains(hay: string, needle: string): (b: bool)
    ensures b <==> exists i :: OccursAt(hay, needle, i)
  {
    if needle <= hay then
      assert OccursAt(hay, needle, 0);
      true
    else if hay == [] then
      false
    else
      var b := Contains(hay[1..], needle);
      if b then
        assert exists i :: OccursAt(hay, needle, i) by {
          var i :| OccursAt(hay[1..], needle, i);
          assert hay[i + 1..i + 1 + |needle|] == hay[1..][i..i + |needle|];
          assert OccursAt(hay, needle, i + 1);
        }
        true
      else
        assert forall i :: OccursAt(hay, needle, i) ==> i == 0 || OccursAt(hay[1..], needle, i - 1) by {
          forall i | OccursAt(hay, needle, i) && i > 0
            ensures OccursAt(hay[1..], needle, i - 1)
          {
            assert hay[1..][i - 1..i - 1 + |needle|] == hay[i..i + |needle|];
          }
        }
        assert !OccursAt(hay, needle, 0);
        false
  }

  /** A needle with a character that never occurs in `hay` is not in it. */
  lemma NotContainsChar(hay: string, needle: string, c: char)
    requires c in needle && c !in hay
    ensures !Contains(hay, needle)
  {
  }

  /** Python's `sep.join(parts)`. */
  function Join(parts: seq<string>, sep: string): string
  {
    if |parts| == 0 then []
    else if |parts| == 1 then parts[0]
    else parts[0] + sep + Join(parts[1..], sep)
  }

  /** Joining non-empty, already stripped pieces with a whitespace separator
      gives a non-empty string that is already stripped. */
  lemma {:induction false} JoinTrimmed(parts: seq<string>, sep: string)
    requires |parts| > 0
    requires forall k | 0 <= k < |parts| :: parts[k] != [] && Trimmed(parts[k])
    ensures Join(parts, sep) != []
    ensures Trimmed(Join(parts, sep))
    ensures Join(parts, sep)[0] == parts[0][0]
    ensures Join(parts, sep)[|Join(parts, sep)| - 1] == parts[|parts| - 1][|parts[|parts| - 1]| - 1]
  {
    if |parts| > 1 {
      JoinTrimmed(parts[1..], sep);
      var rest := Join(parts[1..], sep);
      assert Join(parts, sep) == parts[0] + sep + rest;
    }
  }

  /** Lower-cases the ASCII letters A..Z and leaves every other character alone. */
  function AsciiLower(c: char): char
  {
    if 'A' <= c <= 'Z' then (c as int + 32) as char else c
  }

  /** `s` with every ASCII letter lower-cased. */
  function Lower(s: string): string
  {
    seq(|s|, k requires 0 <= k < |s| => AsciiLower(s[k]))
  }

  /** A case-insensitive substring test, the `icontains` lookup. */
  predicate IContains(hay: string, needle: string)
  {
    Contains(Lower(hay), Lower(needle))
  }

  /** Lower-casing leaves no ASCII capital behind. */
  lemma LowerHasNoCapital(s: string)
    ensures forall c | c in Lower(s) :: !('A' <= c <= 'Z')
  {
    forall c | c in Lower(s) ensures !('A' <= c <= 'Z') {
      var k :| 0 <= k < |s| && Lower(s)[k] == c;
    }
  }

  /** Lower-casing twice is lower-casing once. */
  lemma LowerIdempotent(s: string)
    ensures Lower(Lower(s)) == Lower(s)
  {
  }

  /** `icontains` does not see the case of either side: lower-casing the
      haystack or the needle first changes nothing. */
  lemma IContainsIgnoresCase(hay: string, needle: string)
    ensures IContains(Lower(hay), needle) == IContains(hay, needle)
    ensures IContains(hay, Lower(needle)) == IContains(hay, needle)
  {
    LowerIdempotent(hay);
    LowerIdempotent(needle);
  }
}

=== FILE: worked_cases.dfy ===
/** Concrete inputs from the repository's test suite: each lemma states
    what the model gives on one concrete input, naming its literals locally
    and reaching them one small step at a time through generic lemmas. */
module WorkedCases {
  import opened Wrappers
  import opened Text
  import opened TagModels
  import opened Scrapers
  import opened Parsers
  import opened NewsModels
  import opened Tasks

  /** The byline "記者John Doe／報導" gives the author "John Doe". */
  lemma BylineGivesAuthor()
    ensures GetAuthor(Some("\U{8A18}\U{8005}John Doe\U{FF0F}\U{5831}\U{5C0E}")) == Some("John Doe")
  {
    var t := "\U{8A18}\U{8005}John Doe\U{FF0F}\U{5831}\U{5C0E}";
    assert t[0..2] == ReporterMark;
    assert GroupEnd(t, 10) == Some(10);
    assert GroupEnd(t, 9) == Some(10);
    assert GroupEnd(t, 8) == Some(10);
    assert GroupEnd(t, 7) == Some(10);
    assert GroupEnd(t, 6) == Some(10);
    assert GroupEnd(t, 5) == Some(10);
    assert GroupEnd(t, 4) == Some(10);
    assert GroupEnd(t, 3) == Some(10);
    assert GroupEnd(t, 2) == Some(10);
    assert Search(t, 0) == Some((0, 10));
    assert t[2..10] == "John Doe";
    StripTrimmed("John Doe");
  }

  /** The test byline's author, "John Doe", is stored by the intended block
      but rolls the block back as written: `author_parser` succeeds, and the
      id it returns is refused by the `News` constructor. */
  lemma JohnDoeIsRolledBack(db: Db, job: Job, title: string, thumbnail: string, content: string)
    requires Valid(db) && SessionExists(db.sessions, job.sessionId)
    requires |AuthorsNamed(db.authors, "John Doe")| <= 1
    ensures var detail := NewsData(title, thumbnail,
              GetAuthor(Some("\U{8A18}\U{8005}John Doe\U{FF0F}\U{5831}\U{5C0E}")), content);
      && StoreArticle(db, job, detail) == ProcessResult(AuthorAssignFailed, db)
      && var r := StoreArticleIntended(db, job, detail);
      && r.outcome == Processed(title)
      && r.db.authors.names[r.db.news[|db.news|].author.value] == "John Doe"
  {
    BylineGivesAuthor();
    var detail := NewsData(title, thumbnail, Some("John Doe"), content);
    NamedAuthorIsRolledBack(db, job, detail);
  }

  /** A body of a paragraph, a figure caption, a blank paragraph and another
      paragraph keeps the two paragraphs, one per line. */
  lemma ContentSkipsFigureAndBlank(intro: string, caption: string, blank: string, more: string)
    requires intro != [] && Trimmed(intro) && more != [] && Trimmed(more) && AllSpace(blank)
    ensures GetContent([Para(intro, false), Para(caption, true), Para(blank, false), Para(more, false)])
            == Some(intro + "\n" + more)
  {
    var p0, p1, p2, p3 := Para(intro, false), Para(caption, true), Para(blank, false), Para(more, false);
    StripTrimmed(intro);
    StripTrimmed(more);
    assert Survives(p0) by { assert intro[0] in intro; }
    assert Survives(p3) by { assert more[0] in more; }
    CleanedSingle(p0);
    CleanedSingle(p1);
    CleanedSingle(p2);
    CleanedSingle(p3);
    CleanedAppend([p2], [p3]);
    CleanedAppend([p1], [p2, p3]);
    CleanedAppend([p0], [p1, p2, p3]);
    assert [p2] + [p3] == [p2, p3];
    assert [p1] + [p2, p3] == [p1, p2, p3];
    assert [p0] + [p1, p2, p3] == [p0, p1, p2, p3];
    assert CleanedParagraphs([p0, p1, p2, p3]) == [intro, more];
    assert Join([intro, more], "\n") == intro + "\n" + Join([more], "\n");
  }

  /** With three tags of which the first two occur in the title, the title
      gets the first two ids, in table order. */
  lemma FirstTwoOfThreeTags(title: string, a: string, b: string, c: string)
    requires Contains(title, a) && Contains(title, b) && !Contains(title, c)
    ensures TitleParser([Tag(1, a, Teams), Tag(2, b, Teams), Tag(3, c, Teams)], title) == [1, 2]
  {
    var t1, t2, t3 := Tag(1, a, Teams), Tag(2, b, Teams), Tag(3, c, Teams);
    assert [t3][1..] == [];
    assert TitleParser([t3], title) == [];
    assert [t2, t3][1..] == [t3];
    assert TitleParser([t2, t3], title) == [2];
    assert [t1, t2, t3][1..] == [t2, t3];
  }

  /** "Lakers win NBA championship" against the tags Lakers, NBA and
      Playoffs gives [1, 2]. */
  lemma LakersTitle()
    ensures TitleParser([Tag(1, "Lakers", Teams), Tag(2, "NBA", Teams), Tag(3, "Playoffs", Teams)],
                        "Lakers win NBA championship") == [1, 2]
  {
    var title, lakers, nba, playoffs := "Lakers win NBA championship", "Lakers", "NBA", "Playoffs";
    assert title[0..6] == lakers;
    assert OccursAt(title, lakers, 0);
    assert title[11..14] == nba;
    assert OccursAt(title, nba, 11);
    assert playoffs[0] == 'P';
    NotContainsChar(title, playoffs, 'P');
    FirstTwoOfThreeTags(title, lakers, nba, playoffs);
  }

  /** Two tags that do not occur in the title give no ids. */
  lemma NoneOfTwoTags(title: string, a: string, b: string)
    requires !Contains(title, a) && !Contains(title, b)
    ensures TitleParser([Tag(1, a, Teams), Tag(2, b, Teams)], title) == []
  {
    TitleParserNoMatch([Tag(1, a, Teams), Tag(2, b, Teams)], title);
  }

  /** "Exciting game yesterday" against the tags Lakers and NBA gives no ids. */
  lemma TitleWithoutTags()
    ensures TitleParser([Tag(1, "Lakers", Teams), Tag(2, "NBA", Teams)], "Exciting game yesterday") == []
  {
    var title, lakers, nba := "Exciting game yesterday", "Lakers", "NBA";
    assert lakers[0] == 'L' && nba[0] == 'N';
    assert 'L' !in title && 'N' !in title;
    NotContainsChar(title, lakers, 'L');
    NotContainsChar(title, nba, 'N');
    NoneOfTwoTags(title, lakers, nba);
  }

  /** A 256-character name and the type "InvalidType" are both refused by
      `full_clean`, whatever the table holds. */
  lemma CleanRefusesLongNameAndBadType(s: TagStore)
    ensures FullClean(s, seq(256, _ => 'a'), Teams) == {NameTooLong}
    ensures FullClean(s, "Test Tag", "InvalidType") == {TypeInvalidChoice}
  {
  }
}

=== FILE: wrappers.dfy ===
/** Option and Result, the two failure-carrying shapes the rest of the model uses
    in place of Python's None and raised exceptions. */
module Wrappers {

  /** Some value, or None (Python's None). */
  datatype Option<+T> = None | Some(value: T) {

    /** The value held, or the default when None (Python's `d.get(k, default)`). */
    function GetOr(default: T): T
    {
      match this
      case Some(v) => v
      case None => default
    }
  }

  /** A successful value, or the error a Python call would have raised. */
  datatype Result<+T, +E> = Success(value: T) | Failure(error: E)
}
